=== FILE: README.md ===
# Venue, event and suite management: the business rules, in Dafny

This project models the self-contained business rules of a Django application that
manages venue reservations, events, office-suite contracts and an admin dashboard:

- **Suite contracts** (`SuiteContracts`): the save-time validation of a contract
  (exactly one of individual/organization, an end date unless ongoing, end strictly
  after begin) and the entity a contract is bound to.
- **Events** (`EventModels`, `EventViews`): the `is_upcoming`/`can_register`
  predicates, the one-registration-per-(event, user) constraint, the public listing
  (filter, search, date order), the detail page's `spots_remaining`, and the guarded
  register/unregister transitions on the registration table.
- **Admin dashboard** (`AdminDashboard`): the `is_admin` gate, the reservation status
  update with its 400/404 cases, the newest-20 reservation listing, the statistics
  counts and the first-10 entity listings.
- **Admin subdomain routing** (`SubdomainRouting`): the host/path redirect decision.
- **Chat** (`Chat`): message validation, the session log, the prompt sent to the
  completion service (system message plus the last 10 messages) and the history lookup.
- **Image upload widget** (`DragDropUpload`): the MIME whitelist, the 10 MiB bound,
  the order of the checks and the single error element.

Helper modules: `Wrappers` (Option), `Seqs` (filter, count, take, insertion sort, with
their laws) and `Text` (substring search proved equal to its definition, ASCII
lower-casing, Python `strip`).

Conventions. The database and the clock are parameters: tables are sequences of records
(or a map keyed by id), a handler returns the table it leaves behind, and "now" is an
`int`. Python truthiness is written out: a foreign key or date is truthy when present, an
integer when non-zero, a string when non-empty. Each view's outcome is a datatype with one
constructor per branch of the source, and the HTTP status codes are given by explicit
functions.

Some behaviours of the code are easy to miss. The model follows the code in each:
- Admin hosts are recognised by the substring `admin.` anywhere in the host
  (admin_dashboard/middleware.py:13). The prefix test beside it adds nothing.
- The status update writes any non-empty status string. The statistics count exactly
  `pending`, `confirmed` and `cancelled` (admin_dashboard/views.py:83-85). A row with any
  other status counts in none of the three status counts. It still counts in `total`,
  in `recent` when created since the cut-off, and toward its venue's `with_reservations`.
- `can_register` (events/models.py:48-55) depends only on `is_active`, the deadline and
  the date.
- The date-order rule of `clean` (manage_suites/models.py:92-94) applies to ongoing
  contracts too.

## Model

| member | source | states |
|---|---|---|
| SuiteContracts.Clean | manage_suites/models.py:77-94 | a contract is valid iff it has exactly one entity, an end date unless ongoing, and end > begin when both dates exist; each error is returned exactly when every earlier rule passes and its own rule fails |
| SuiteContracts.GetEntity | manage_suites/models.py:96-102 | the individual when set (even if an organization is also set), else the organization, else nothing; nothing iff neither is set |
| SuiteContracts.CleanContractHasOneEntity | manage_suites/models.py:77-102 | after a successful clean, get_entity is never None and the other reference is empty |
| SuiteContracts.OngoingStillChecksDates | manage_suites/models.py:92-94 | an ongoing contract with end <= begin is still rejected with the date-order error |
| SuiteContracts.SameDayContractRejected | manage_suites/models.py:93-94 | an end date equal to the begin date is rejected |
| EventModels.CanRegister | events/models.py:48-55 | false for inactive events and for a deadline strictly before now; otherwise equal to is_upcoming (date > now), so it implies active and upcoming |
| EventModels.DeadlineIsInclusive | events/models.py:53-54 | a deadline equal to now does not block registration |
| EventModels.UniqueMatchesAtMostOne | events/models.py:70 | under unique_together, at most one registration row matches an (event, user) pair |
| EventViews.EventList | events/views.py:9-24 | the listing is sorted by date ascending and every entry is active, dated now or later and, for a non-empty search, contains the query case-insensitively in title, description or location |
| EventViews.EventListIsPermutation | events/views.py:12-24 | the listing holds every shown event of the table exactly as often as the table does, and nothing else |
| EventViews.ListedNowButClosed | events/views.py:12-15 | an active event dated exactly now is listed (date >= now) although can_register is false for it |
| EventViews.Capacity | events/views.py:52-55 | a max_participants of None or 0 imposes no capacity; any other value is itself the capacity the count is compared against |
| EventViews.SpotsRemaining | events/views.py:52-55 | spots_remaining exists iff max_participants is set and non-zero, and then spots + count = max |
| EventViews.EventDetail | events/views.py:33-57 | 404 iff the event is unknown; user_registered iff the viewer is logged in and holds a registration; registration_count counts the event's rows; spots follow the capacity |
| EventViews.FullIffNoSpotsLeft | events/views.py:75-80 | the register view's "event is full" guard holds iff the detail page shows a capacity with spots_remaining <= 0 |
| EventViews.RegisterForEvent | events/views.py:60-98 | the guards run in order login, lookup, can_register, duplicate, capacity; each refusal leaves the table unchanged; only a POST past all guards appends exactly the one new (event, user, notes) row; a GET past them renders the form |
| EventViews.RegisterPreservesUnique | events/views.py:69-90 | registering keeps at most one registration per (event, user) pair |
| EventViews.RegisterCounts | events/views.py:82-90 | a successful registration raises its event's count by one and leaves every other event's count unchanged |
| EventViews.RegisterKeepsCapacity | events/views.py:75-90 | run sequentially, a registration that passes the capacity guard leaves count <= max_participants |
| EventViews.SecondRegistrationRefused | events/views.py:69-72 | registering the same user for the same event again is refused as already registered |
| EventViews.UnregisterFromEvent | events/views.py:102-120 | login, lookup, then the registration lookup: "not registered" iff no row matches, the uncaught duplicate-row error iff several match, and success iff exactly one matches; success removes exactly that one row at its position and keeps every other row in order; every other outcome leaves the table unchanged |
| EventViews.UnregisterNeverSeesDuplicates | events/views.py:107-111 | with the uniqueness constraint the lookup never finds several rows |
| EventViews.UnregisterPreservesUnique | events/views.py:107-118 | unregistering keeps the uniqueness constraint |
| EventViews.RegisterThenUnregister | events/views.py:82-118 | unregistering right after a successful registration restores the original table |
| AdminDashboard.AdminOnly | admin_dashboard/views.py:66-67 | the `login_required` and `user_passes_test(is_admin)` pair, as on the three read endpoints (lines 66-67, 110-111, 181-182): an anonymous user is redirected; otherwise the payload is served iff the user passes is_admin (lines 17-19), and then unchanged |
| AdminDashboard.NonAdminReadsNothing | admin_dashboard/views.py:66-211 | a user who is not an admin is redirected by the stats, reservations and entities endpoints |
| AdminDashboard.AdminReadsEverything | admin_dashboard/views.py:66-211 | an admin is served the stats, the reservation listing and the entity listings exactly as the handlers compute them |
| AdminDashboard.UpdateReservationStatus | admin_dashboard/views.py:214-236 | 405 for non-POST, login redirect for non-admins, 500 for a body that is not a JSON object, 400 when reservation_id or status is missing or falsy, 404 when no row has the id; on success the one matching row gets exactly the given status string and every other row is unchanged; only success changes the table |
| AdminDashboard.SetStatus | admin_dashboard/views.py:228-230 | every row carrying the id gets the new status and differs from before in nothing else; rows with other ids are unchanged |
| AdminDashboard.UniqueIdsMatchAtMostOne | admin_dashboard/views.py:228 | with distinct ids the lookup matches at most one row |
| AdminDashboard.UpdateWithUniqueIdsNeverFails | admin_dashboard/views.py:225-236 | with distinct ids, a well-formed admin POST ends in 404 or success, never the 500 |
| AdminDashboard.UpdatePreservesUniqueIds | admin_dashboard/views.py:228-230 | an update keeps the ids distinct |
| AdminDashboard.UpdateIsIdempotent | admin_dashboard/views.py:228-232 | repeating a successful update succeeds again and changes nothing further |
| AdminDashboard.NonAdminChangesNothing | admin_dashboard/views.py:214-218 | a non-admin request gets 405 or a login redirect and leaves the table unchanged |
| AdminDashboard.RecentReservations | admin_dashboard/views.py:116 | min(20, n) reservations, newest created_at first, forming a sub-multiset of the table; with at most 20 rows, exactly the table's rows |
| AdminDashboard.RecentAreNewest | admin_dashboard/views.py:116 | a reservation left out of a full page is no newer than the oldest one shown |
| AdminDashboard.ReservationsListing | admin_dashboard/views.py:110-132 | one row per selected reservation in the same order, newest first, each its projection: id, organization, type, duration, status, creation time and both crowd sizes copied, the venue's name or 'N/A', the start time copied or None |
| AdminDashboard.AdminStats | admin_dashboard/views.py:68-103 | each count is the number of rows passing its filter: active event classes, reservations in status pending, confirmed and cancelled, reservations created since the cut-off, venues some reservation points at; the totals are the table sizes; available suites = 0; hence pending + confirmed + cancelled <= total |
| AdminDashboard.StatusCountsWithinTotal | admin_dashboard/views.py:82-85 | the three status counts select disjoint rows, so their sum is at most the total |
| AdminDashboard.UncountedStatusAddsOnlyToTotal | admin_dashboard/views.py:82-85 | a reservation in a status other than pending/confirmed/cancelled (e.g. approved, rejected) raises the total and none of the three counts |
| AdminDashboard.CountedStatusAddsOne | admin_dashboard/views.py:82-85 | a new reservation in a counted status raises the total and exactly its own status count by one |
| AdminDashboard.EntitiesListing | admin_dashboard/views.py:183-209 | each list is the first min(10, n) rows of its table, in table order |
| SubdomainRouting.AdminHostIsSubstringTest | admin_dashboard/middleware.py:13 | the host test holds iff "admin." occurs anywhere in the host; the prefix disjunct is subsumed |
| SubdomainRouting.Route | admin_dashboard/middleware.py:9-19 | a redirect, always to "/admin_dashboard/", happens iff the host contains "admin." and the path does not start with "/admin_dashboard/"; otherwise the request passes through |
| SubdomainRouting.RedirectIsFinal | admin_dashboard/middleware.py:15-16 | the redirect target on the same host passes through |
| SubdomainRouting.OtherHostsPassThrough | admin_dashboard/middleware.py:13-19 | a host without "admin." always passes through |
| SubdomainRouting.SuperadminHostIsAdmin | admin_dashboard/middleware.py:13 | "superadmin.example.com" counts as an admin host and "/" is redirected |
| SubdomainRouting.BareDashboardPathRedirected | admin_dashboard/middleware.py:15-16 | on an admin host, "/admin_dashboard" without the trailing slash is redirected |
| Text.StripEmptyIffBlank | chat/views.py:21-25 | a message strips to "" exactly when it is all whitespace |
| Chat.BuildPrompt | chat/views.py:76-87 | the prompt is the fixed system message followed by the last min(10, n) history messages, oldest first, role and content unchanged; at most 11 entries |
| Chat.PromptEndsWithLatest | chat/views.py:83-87 | the prompt ends with the newest history message |
| Chat.CallCompletion | chat/views.py:66-120 | without a key: the fixed "not configured" reply and no request; with one: the request is the built prompt, a completed answer is returned stripped, and a non-200 status, a network error and any other error each give their own fixed apology; the reply is empty only for an all-whitespace answer |
| Chat.ChatApi | chat/views.py:15-64 | 405 for non-POST; 500 for a body that does not decode as text; 400 for text that is not JSON; 500 for JSON that is not an object, a non-string message, or a null session id with a non-blank message; 400 for a blank message; none of these stores or sends anything; otherwise the stripped message is appended to the addressed session (created for the current user if new), the history including it goes to the completion service, and the handler replies iff the service's reply is non-empty, with that reply and the session id, storing the reply after the message; no other session changes |
| Chat.OnlyBlankAnswerFails | chat/views.py:46-59 | the handler's 500 "Failed to get response from AI" happens iff the service completed with an all-whitespace answer; every failure is answered with its apology |
| Chat.ReplyIsStripped | chat/views.py:108-110 | a completed non-blank answer is shown without leading or trailing whitespace |
| Chat.UnconfiguredAlwaysAnswers | chat/views.py:46-71 | without an API key every non-blank message is answered with the "not configured" text and no request is made |
| Chat.GetChatHistory | chat/views.py:122-138 | 400 for a missing or empty session_id; an unknown session gives an empty list without a session id; a known one gives its messages |
| Chat.HistoryShowsExchange | chat/views.py:33-57 | after a reply, the session's history ends with the user message and the assistant reply |
| DragDropUpload.ValidityIgnoresCase | staticfiles/admin/js/drag_drop_upload.js:182-185 | MIME types equal up to ASCII letter case are judged alike |
| DragDropUpload.UpperCaseTypeAccepted | staticfiles/admin/js/drag_drop_upload.js:182-185 | "IMAGE/PNG" is accepted |
| DragDropUpload.OtherImageTypesRejected | staticfiles/admin/js/drag_drop_upload.js:183 | image types off the whitelist such as image/svg+xml and image/bmp are rejected |
| DragDropUpload.Check | staticfiles/admin/js/drag_drop_upload.js:100-110 | accepted iff the type is whitelisted and size <= 10*1024*1024; an invalid type reports the type error whatever the size; the size error only for a valid type |
| DragDropUpload.ClearError | staticfiles/admin/js/drag_drop_upload.js:202-207 | the first error element is removed and the rest kept in order; from at most one error, none remains |
| DragDropUpload.ShowError | staticfiles/admin/js/drag_drop_upload.js:187-194 | from at most one error, exactly the new error remains; the error count never grows past one |
| DragDropUpload.HandleFileSelect | staticfiles/admin/js/drag_drop_upload.js:97-113 | no file does nothing; a rejected file shows its one error; an accepted file is taken and removes the first error element, so from at most one error none remains; at most one error is kept |
| DragDropUpload.HandleDrop | staticfiles/admin/js/drag_drop_upload.js:81-94 | no files: nothing changes; a first file of invalid type: the type error; otherwise the first file goes through the select handler |
| DragDropUpload.DropIsSelectFirst | staticfiles/admin/js/drag_drop_upload.js:81-94 | a drop with no files does nothing; otherwise it is selecting the first file |
| DragDropUpload.DropsKeepOneError | staticfiles/admin/js/drag_drop_upload.js:81-94 | any sequence of drops keeps at most one error element |
| DragDropUpload.AcceptedFileOverflows | staticfiles/admin/js/drag_drop_upload.js:97-133 | as written, selecting an acceptable file re-enters the handler through its own change event at every nesting level the stack allows: the overflow is thrown and reported, one preview is started per level, and the widget ends as the corrected handler leaves it |
| DragDropUpload.AsWrittenAgreesWhenNotAccepted | staticfiles/admin/js/drag_drop_upload.js:97-110 | for no file or a rejected file, the code as written and the corrected handler agree, with no preview and no overflow |

## Findings

| source | as written | input that shows it | evidently intended | confidence | as-written member | corrected member |
|---|---|---|---|---|---|---|
| staticfiles/admin/js/drag_drop_upload.js:132-133 | after taking an accepted file, `handleFileSelect` dispatches `change` on the file input. The input's `change` listener (lines 64-66) calls `handleFileSelect` again with the same file. Dispatch is synchronous, so the handler re-enters until the stack overflows. The innermost call throws a `RangeError`; the dispatch that invoked it reports the error and the outer calls return, each having started its own preview | any accepted file, e.g. a 1 KB "image/png" chosen through the file dialog | notify other listeners of the new file once, without re-running validation and preview | not executed; high (dispatchEvent runs listeners synchronously) | DragDropUpload.HandleFileSelectAsWritten, shown by DragDropUpload.AcceptedFileOverflows | DragDropUpload.HandleFileSelect |

The visible effects of an accepted file are the cleared error, `has-file`, the preview
and the input's files. They all happen before the dispatch, so the widget still looks
right. The failures are the reported stack overflow and one `FileReader` preview started
per nesting level instead of one.

## Left out

- The ORM, sessions, the messages framework, templates and redirects: they become explicit
  table values, outcome datatypes and HTTP-status functions.
- Clocks (`timezone.now()`, `datetime.now()`), UUID generation and the completion
  service's HTTP call: they are parameters (`now`, `freshId`, `CompletionOutcome`).
- Concurrency: the capacity check and the insert of `register_for_event` are not atomic.
  Only sequential execution is modelled.
- Timestamps of registrations and chat messages: the order of a sequence stands for
  creation order. This assumes the clock does not run backwards.
- EventViews.MatchesSearch: `icontains` is modelled with ASCII lower-casing on both
  sides. Case folding beyond ASCII depends on the database backend.
- DragDropUpload.IsValidImageFile: lower-casing is ASCII only. JavaScript's `toLowerCase`
  maps only ASCII letters and the Kelvin sign (to "k") into ASCII. No whitelisted type
  contains "k", so the accepted set is the same. This argument is not proved.
- Non-string JSON values in the status update: a non-string `status` and a non-integer
  `reservation_id` are not modelled. In the source they end in a 500 or a
  type-coercion lookup.
- Chat.ChatApi: a `session_id` that is a JSON number, list or object is not modelled.
  Django's lookup coerces some of these to text and rejects others. Only an absent,
  string or null `session_id` is modelled.
- The `recent` count's cut-off is passed in as `weekAgo`. The date arithmetic that
  derives it, and the unused `month_ago`, are left out.
- ISO-8601 formatting of dates in the listing: times stay integers.
- admin_entities_api reads `id`, `full_name`, `phone`, `contact_person` and similar
  fields. entitypool/models.py does not define them: it has `ui_id`, `name_first` and
  others. The model treats each row as carrying the fields the handler reads. With the
  models as shown, any non-empty table would raise and answer 500.
- `admin_venues_api`, `admin_suites_api`, and the login, logout and dashboard page views
  of admin_dashboard/views.py: they are projections and framework authentication.
- The float conversion of `monthly_rent` is also left out.
- `my_events`, `chat_page`, the crowd-size lookup, reservation forms and
  `reservation_list`/`reservation_detail`/`api_create_event`. They are rendering only,
  or not part of this model: `Reservation`, `Venue` and `EventClass` are modelled only
  through the fields the dashboard reads.
- system_status/views.py: host metrics, floating point and raw SQL.
- DOM rendering in drag_drop_upload.js: previews, `FileReader`, `DataTransfer`, the
  progress animation and the 5-second auto-hide timer of `showError`.
- The texts of the four `ValidationError`s of `clean`: the model names each error by a
  constructor of `ContractError` instead.
- contract_admin.js clears the end date when "ongoing" is ticked. That is covered by the
  server-side `clean`.
- The admin registrations, URL configuration, WSGI entry point and the health check.

=== FILE: admin_dashboard.dfy ===
/** The staff dashboard's JSON handlers: the admin gate, the reservation status update,
    and the pure selections and counts behind the statistics, reservation and entity
    endpoints. Tables are sequences of records holding only the fields the handlers read. */
module AdminDashboard {
  import opened Wrappers
  import opened Seqs

  datatype User = User(isAuthenticated: bool, isStaff: bool)

  /** `is_admin`. */
  predicate IsAdmin(u: User) {
    u.isAuthenticated && u.isStaff
  }

  datatype Venue = Venue(id: int, name: string)

  /** A reservation row as the handlers read it; times are integers. */
  datatype Reservation = Reservation(
    eventId: int,
    eventOrganization: string,
    eventType: string,
    venue: Option<Venue>,
    startDatetime: Option<int>,
    durationHours: int,
    status: string,
    createdAt: int,
    minCrowdSize: int,
    maxCrowdSize: int)

  /** `event_id` identifies a reservation: no two rows share one. */
  ghost predicate UniqueIds(table: seq<Reservation>) {
    forall i, j :: 0 <= i < j < |table| ==> table[i].eventId != table[j].eventId
  }

  predicate HasId(r: Reservation, id: int) {
    r.eventId == id
  }

  // -------------------------------------------- admin_update_reservation_status

  /** The decoded JSON body: None when it is not a JSON object. A key absent from the
      object is None. */
  datatype StatusRequest = StatusRequest(reservationId: Option<int>, status: Option<string>)

  datatype UpdateReply =
    | MethodNotAllowed    // `require_http_methods(["POST"])`
    | LoginRedirect       // `login_required` or `user_passes_test(is_admin)`
    | MissingFields       // "Missing required fields"
    | ReservationNotFound // "Reservation not found"
    | ServerError         // any other exception, reported with its message
    | StatusUpdated       // "Status updated successfully"

  function HttpStatus(reply: UpdateReply): int {
    match reply
    case MethodNotAllowed => 405
    case LoginRedirect => 302
    case MissingFields => 400
    case ReservationNotFound => 404
    case ServerError => 500
    case StatusUpdated => 200
  }

  datatype UpdateStep = UpdateStep(reply: UpdateReply, table: seq<Reservation>)

  /** Python truthiness of the two fields: a missing key, 0 and "" are all false. */
  predicate FieldsPresent(req: StatusRequest) {
    req.reservationId.Some? && req.reservationId.value != 0
    && req.status.Some? && req.status.value != ""
  }

  /** The table with the status of every row carrying `id` replaced by `status`:
      `reservation.status = new_status; reservation.save()`. */
  function SetStatus(table: seq<Reservation>, id: int, status: string): (t: seq<Reservation>)
    ensures |t| == |table|
    ensures forall i :: 0 <= i < |t| ==> t[i].(status := table[i].status) == table[i]
    ensures forall i :: 0 <= i < |t| && HasId(table[i], id) ==> t[i].status == status
    ensures forall i :: 0 <= i < |t| && !HasId(table[i], id) ==> t[i] == table[i]
  {
    seq(|table|, i requires 0 <= i < |table| =>
      if HasId(table[i], id) then table[i].(status := status) else table[i])
  }

  /** `admin_update_reservation_status`: the decorators run outermost first, then the
      field check, then the lookup. Any status string is written as given. */
  function UpdateReservationStatus(table: seq<Reservation>, isPost: bool, user: User,
                                   body: Option<StatusRequest>): (r: UpdateStep)
    ensures r.reply != StatusUpdated ==> r.table == table
    ensures r.reply == StatusUpdated <==>
      isPost && IsAdmin(user) && body.Some? && FieldsPresent(body.value)
      && Count(table, (x: Reservation) => HasId(x, body.value.reservationId.value)) == 1
    ensures r.reply == StatusUpdated ==>
      && |r.table| == |table|
      && exists k :: (0 <= k < |table| && HasId(table[k], body.value.reservationId.value)
           && r.table[k] == table[k].(status := body.value.status.value)
           && forall i :: 0 <= i < |table| && i != k ==> r.table[i] == table[i])
    ensures r.reply == MethodNotAllowed <==> !isPost
    ensures isPost && IsAdmin(user) && body.None? ==> r.reply == ServerError && r.table == table
    ensures r.reply == LoginRedirect <==> isPost && !IsAdmin(user)
    ensures r.reply == MissingFields <==> isPost && IsAdmin(user) && body.Some? && !FieldsPresent(body.value)
    ensures r.reply == ReservationNotFound <==>
      isPost && IsAdmin(user) && body.Some? && FieldsPresent(body.value)
      && forall i :: 0 <= i < |table| ==> !HasId(table[i], body.value.reservationId.value)
  {
    if !isPost then UpdateStep(MethodNotAllowed, table)
    else if !user.isAuthenticated || !user.isStaff then UpdateStep(LoginRedirect, table)
    else if body.None? then UpdateStep(ServerError, table)
    else
      var req := body.value;
      if !FieldsPresent(req) then UpdateStep(MissingFields, table)
      else
        var id := req.reservationId.value;
        var matching := Filter(table, (x: Reservation) => HasId(x, id));
        FilterNoneIff(table, id);
        if |matching| == 0 then
          UpdateStep(ReservationNotFound, table)
        else if |matching| > 1 then UpdateStep(ServerError, table)
        else
          var t := SetStatus(table, id, req.status.value);
          OnlyMatchUpdated(table, id, req.status.value);
          UpdateStep(StatusUpdated, t)
  }

  /** No row carries `id` exactly when the lookup comes back empty. */
  lemma FilterNoneIff(table: seq<Reservation>, id: int)
    ensures |Filter(table, (x: Reservation) => HasId(x, id))| == 0 <==>
      forall i :: 0 <= i < |table| ==> !HasId(table[i], id)
  {
    if forall i :: 0 <= i < |table| ==> !HasId(table[i], id) {
      FilterNone(table, (x: Reservation) => HasId(x, id));
    }
  }

  /** When exactly one row carries `id`, only that row is rewritten. */
  lemma {:induction false} OnlyMatchUpdated(table: seq<Reservation>, id: int, status: string)
    requires |Filter(table, (x: Reservation) => HasId(x, id))| == 1
    ensures exists k :: (0 <= k < |table| && HasId(table[k], id)
      && forall i :: 0 <= i < |table| && i != k ==> !HasId(table[i], id))
  {
    var p := (x: Reservation) => HasId(x, id);
    assert table == [table[0]] + table[1..];
    if p(table[0]) {
      FilterNoneIff(table[1..], id);
      forall i | 0 < i < |table|
        ensures !HasId(table[i], id)
      {
        assert table[1..][i - 1] == table[i];
      }
    } else {
      OnlyMatchUpdated(table[1..], id, status);
      var k :| 0 <= k < |table[1..]| && HasId(table[1..][k], id)
        && forall i :: 0 <= i < |table[1..]| && i != k ==> !HasId(table[1..][i], id);
      forall i | 0 <= i < |table| && i != k + 1
        ensures !HasId(table[i], id)
      {
        if i > 0 {
          assert table[1..][i - 1] == table[i];
        }
      }
    }
  }

  /** Rows with distinct identifiers: a well-formed update request reaches either the
      one matching row or the 404, never the duplicate-row 500. */
  lemma {:induction false} UniqueIdsMatchAtMostOne(table: seq<Reservation>, id: int)
    requires UniqueIds(table)
    ensures Count(table, (x: Reservation) => HasId(x, id)) <= 1
  {
    var p := (x: Reservation) => HasId(x, id);
    if |table| > 0 {
      assert UniqueIds(table[1..]);
      UniqueIdsMatchAtMostOne(table[1..], id);
      if p(table[0]) {
        forall i | 0 <= i < |table[1..]|
          ensures !p(table[1..][i])
        {
          assert table[1..][i] == table[i + 1];
        }
        FilterNone(table[1..], p);
      }
    }
  }

  lemma UpdateWithUniqueIdsNeverFails(table: seq<Reservation>, user: User, req: StatusRequest)
    requires UniqueIds(table) && IsAdmin(user) && FieldsPresent(req)
    ensures UpdateReservationStatus(table, true, user, Some(req)).reply in {ReservationNotFound, StatusUpdated}
  {
    UniqueIdsMatchAtMostOne(table, req.reservationId.value);
    FilterNoneIff(table, req.reservationId.value);
  }

  /** An update keeps every identifier, so it keeps them distinct. */
  lemma UpdatePreservesUniqueIds(table: seq<Reservation>, isPost: bool, user: User, body: Option<StatusRequest>)
    requires UniqueIds(table)
    ensures UniqueIds(UpdateReservationStatus(table, isPost, user, body).table)
  {
  }

  /** Repeating a successful update changes nothing further. */
  lemma UpdateIsIdempotent(table: seq<Reservation>, user: User, req: StatusRequest)
    requires UpdateReservationStatus(table, true, user, Some(req)).reply == StatusUpdated
    ensures var t := UpdateReservationStatus(table, true, user, Some(req)).table;
      UpdateReservationStatus(t, true, user, Some(req)) == UpdateStep(StatusUpdated, t)
  {
    var id := req.reservationId.value;
    var t := SetStatus(table, id, req.status.value);
    FilterSameCount(table, t, (x: Reservation) => HasId(x, id));
    assert SetStatus(t, id, req.status.value) == t;
  }

  // ------------------------------------------------------- admin_reservations_api

  /** One entry of the reservations listing. */
  datatype ReservationRow = ReservationRow(
    id: int,
    eventOrganization: string,
    eventType: string,
    venue: string,
    startDatetime: Option<int>,
    durationHours: int,
    status: string,
    createdAt: int,
    minCrowdSize: int,
    maxCrowdSize: int)

  /** The listing shows the venue's name or 'N/A', and the start time or null. */
  function Row(r: Reservation): (row: ReservationRow)
    ensures row.venue == if r.venue.Some? then r.venue.value.name else "N/A"
    ensures row.startDatetime == r.startDatetime
    ensures row.id == r.eventId && row.status == r.status && row.createdAt == r.createdAt
    ensures row.eventOrganization == r.eventOrganization && row.eventType == r.eventType
    ensures row.durationHours == r.durationHours
    ensures row.minCrowdSize == r.minCrowdSize && row.maxCrowdSize == r.maxCrowdSize
  {
    ReservationRow(r.eventId, r.eventOrganization, r.eventType,
                   match r.venue case Some(v) => v.name case None => "N/A",
                   r.startDatetime, r.durationHours, r.status, r.createdAt,
                   r.minCrowdSize, r.maxCrowdSize)
  }

  /** The listing's page size. */
  const ListingLimit: nat := 20

  function NewestFirst(r: Reservation): int { -r.createdAt }

  /** `order_by('-created_at')[:20]`: the selected reservations, newest first. */
  function RecentReservations(table: seq<Reservation>): (s: seq<Reservation>)
    ensures |s| == Min(ListingLimit, |table|)
    ensures forall i, j :: 0 <= i < j < |s| ==> s[i].createdAt >= s[j].createdAt
    ensures forall i :: 0 <= i < |s| ==> s[i] in table
    ensures multiset(s) <= multiset(table)
    ensures |table| <= ListingLimit ==> multiset(s) == multiset(table)
  {
    var sorted := SortBy(table, NewestFirst);
    assert |sorted| == |table| by {
      assert |multiset(sorted)| == |multiset(table)|;
    }
    var s := Take(sorted, ListingLimit);
    assert sorted == s + sorted[|s|..];
    assert multiset(sorted) == multiset(s) + multiset(sorted[|s|..]);
    assert forall i :: 0 <= i < |s| ==> s[i] == sorted[i];
    assert forall i :: 0 <= i < |s| ==> s[i] in table by {
      forall i | 0 <= i < |s|
        ensures s[i] in table
      {
        assert s[i] in multiset(sorted);
      }
    }
    s
  }

  /** The selection really is the newest: a reservation left out of a full page is no
      newer than the oldest one shown. */
  lemma RecentAreNewest(table: seq<Reservation>, x: Reservation)
    requires x in table && |table| > ListingLimit
    ensures x in RecentReservations(table)
         || x.createdAt <= RecentReservations(table)[ListingLimit - 1].createdAt
  {
    var sorted := SortBy(table, NewestFirst);
    assert x in multiset(sorted);
    var k :| 0 <= k < |sorted| && sorted[k] == x;
    var s := RecentReservations(table);
    assert s == sorted[..ListingLimit];
    if k < ListingLimit {
      assert s[k] == x;
    } else {
      assert NewestFirst(sorted[ListingLimit - 1]) <= NewestFirst(sorted[k]);
    }
  }

  /** `admin_reservations_api`: one row per selected reservation, in the same order. */
  function ReservationsListing(table: seq<Reservation>): (rows: seq<ReservationRow>)
    ensures |rows| <= ListingLimit && |rows| == Min(ListingLimit, |table|)
    ensures forall i, j :: 0 <= i < j < |rows| ==> rows[i].createdAt >= rows[j].createdAt
    ensures forall i :: 0 <= i < |rows| ==> exists x :: x in table && rows[i] == Row(x)
    ensures |rows| == |RecentReservations(table)|
    ensures forall i :: 0 <= i < |rows| ==> rows[i] == Row(RecentReservations(table)[i])
  {
    var s := RecentReservations(table);
    var rows := seq(|s|, i requires 0 <= i < |s| => Row(s[i]));
    assert forall i :: 0 <= i < |rows| ==> s[i] in table && rows[i] == Row(s[i]);
    assert forall i :: 0 <= i < |rows| ==> rows[i].createdAt == s[i].createdAt;
    rows
  }

  // ------------------------------------------------------------- admin_stats_api

  datatype EventClass = EventClass(isActive: bool)

  datatype Stats = Stats(
    eventsTotal: nat, eventsActive: nat,
    reservationsTotal: nat, pending: nat, confirmed: nat, cancelled: nat, recent: nat,
    venuesTotal: nat, venuesWithReservations: nat,
    suitesTotal: nat, suitesAvailable: nat, contracts: nat,
    individuals: nat, organizations: nat)

  function StatusCount(table: seq<Reservation>, status: string): nat {
    Count(table, (x: Reservation) => x.status == status)
  }

  /** The rows of `table` whose status is exactly `status`, by position. */
  ghost function RowsWithStatus(table: seq<Reservation>, status: string): set<int> {
    set i | 0 <= i < |table| && table[i].status == status
  }

  /** The rows of `table` created at or after `since`, by position. */
  ghost function RowsSince(table: seq<Reservation>, since: int): set<int> {
    set i | 0 <= i < |table| && table[i].createdAt >= since
  }

  /** The active event classes, by position. */
  ghost function ActiveClasses(eventClasses: seq<EventClass>): set<int> {
    set i | 0 <= i < |eventClasses| && eventClasses[i].isActive
  }

  /** The venues some reservation points at, by position. */
  ghost function VenuesInUse(venues: seq<Venue>, table: seq<Reservation>): set<int> {
    set i | 0 <= i < |venues| && HasReservation(venues[i], table)
  }

  lemma StatusCountByRows(table: seq<Reservation>, status: string)
    ensures StatusCount(table, status) == |RowsWithStatus(table, status)|
  {
    var p := (x: Reservation) => x.status == status;
    CountByIndices(table, p);
    assert Positions(table, p) == RowsWithStatus(table, status);
  }

  lemma RecentCountByRows(table: seq<Reservation>, since: int)
    ensures Count(table, (x: Reservation) => x.createdAt >= since) == |RowsSince(table, since)|
  {
    var p := (x: Reservation) => x.createdAt >= since;
    CountByIndices(table, p);
    assert Positions(table, p) == RowsSince(table, since);
  }

  lemma ActiveCountByRows(eventClasses: seq<EventClass>)
    ensures Count(eventClasses, (c: EventClass) => c.isActive) == |ActiveClasses(eventClasses)|
  {
    var p := (c: EventClass) => c.isActive;
    CountByIndices(eventClasses, p);
    assert Positions(eventClasses, p) == ActiveClasses(eventClasses);
  }

  lemma VenueCountByRows(venues: seq<Venue>, table: seq<Reservation>)
    ensures Count(venues, (v: Venue) => HasReservation(v, table)) == |VenuesInUse(venues, table)|
  {
    var p := (v: Venue) => HasReservation(v, table);
    CountByIndices(venues, p);
    assert Positions(venues, p) == VenuesInUse(venues, table);
  }

  /** Some reservation points at the venue: `Count('reservation') > 0`. */
  predicate HasReservation(v: Venue, table: seq<Reservation>) {
    exists r :: r in table && r.venue.Some? && r.venue.value.id == v.id
  }

  /** `admin_stats_api`. The suite, contract and entity tables contribute only their
      sizes; `weekAgo` is the cut-off the handler derives from the clock. The suite
      model has no `is_available` field, so `available` is always 0. Each count is
      the number of positions in its table that pass its filter. */
  function AdminStats(eventClasses: seq<EventClass>, table: seq<Reservation>, venues: seq<Venue>,
                      suites: nat, contracts: nat, individuals: nat, organizations: nat,
                      weekAgo: int): (s: Stats)
    ensures s.eventsTotal == |eventClasses|
    ensures s.eventsActive == |ActiveClasses(eventClasses)|
    ensures s.reservationsTotal == |table|
    ensures s.pending == |RowsWithStatus(table, "pending")|
    ensures s.confirmed == |RowsWithStatus(table, "confirmed")|
    ensures s.cancelled == |RowsWithStatus(table, "cancelled")|
    ensures s.recent == |RowsSince(table, weekAgo)|
    ensures s.venuesTotal == |venues|
    ensures s.venuesWithReservations == |VenuesInUse(venues, table)|
    ensures s.suitesTotal == suites && s.suitesAvailable == 0 && s.contracts == contracts
    ensures s.individuals == individuals && s.organizations == organizations
    ensures s.eventsActive <= s.eventsTotal
    ensures s.pending + s.confirmed + s.cancelled <= s.reservationsTotal
    ensures s.recent <= s.reservationsTotal
    ensures s.venuesWithReservations <= s.venuesTotal
  {
    StatusCountsWithinTotal(table);
    StatusCountByRows(table, "pending");
    StatusCountByRows(table, "confirmed");
    StatusCountByRows(table, "cancelled");
    ActiveCountByRows(eventClasses);
    RecentCountByRows(table, weekAgo);
    VenueCountByRows(venues, table);
    Stats(
      |eventClasses|, Count(eventClasses, (c: EventClass) => c.isActive),
      |table|, StatusCount(table, "pending"), StatusCount(table, "confirmed"),
      StatusCount(table, "cancelled"), Count(table, (x: Reservation) => x.createdAt >= weekAgo),
      |venues|, Count(venues, (v: Venue) => HasReservation(v, table)),
      suites, 0, contracts,
      individuals, organizations)
  }

  /** The three counted statuses select disjoint rows, so they never add up to more
      than the table. */
  lemma {:induction false} StatusCountsWithinTotal(table: seq<Reservation>)
    ensures StatusCount(table, "pending") + StatusCount(table, "confirmed") + StatusCount(table, "cancelled") <= |table|
  {
    if |table| > 0 {
      StatusCountsWithinTotal(table[1..]);
    }
  }

  /** A reservation in any status other than the three counted ones raises the total
      and none of the three status counts. */
  lemma UncountedStatusAddsOnlyToTotal(table: seq<Reservation>, x: Reservation, weekAgo: int,
                                       eventClasses: seq<EventClass>, venues: seq<Venue>)
    requires x.status !in {"pending", "confirmed", "cancelled"}
    ensures var before := AdminStats(eventClasses, table, venues, 0, 0, 0, 0, weekAgo);
      var after := AdminStats(eventClasses, table + [x], venues, 0, 0, 0, 0, weekAgo);
      after.reservationsTotal == before.reservationsTotal + 1
      && after.pending == before.pending && after.confirmed == before.confirmed
      && after.cancelled == before.cancelled
  {
    assert [x][1..] == [];
    FilterAppend(table, [x], (r: Reservation) => r.status == "pending");
    FilterAppend(table, [x], (r: Reservation) => r.status == "confirmed");
    FilterAppend(table, [x], (r: Reservation) => r.status == "cancelled");
  }

  /** A new reservation in one of the three counted statuses raises the total and
      exactly that status's count by one, and leaves the other two unchanged. */
  lemma CountedStatusAddsOne(table: seq<Reservation>, x: Reservation, weekAgo: int,
                             eventClasses: seq<EventClass>, venues: seq<Venue>)
    requires x.status in {"pending", "confirmed", "cancelled"}
    ensures var before := AdminStats(eventClasses, table, venues, 0, 0, 0, 0, weekAgo);
      var after := AdminStats(eventClasses, table + [x], venues, 0, 0, 0, 0, weekAgo);
      && after.reservationsTotal == before.reservationsTotal + 1
      && after.pending == before.pending + (if x.status == "pending" then 1 else 0)
      && after.confirmed == before.confirmed + (if x.status == "confirmed" then 1 else 0)
      && after.cancelled == before.cancelled + (if x.status == "cancelled" then 1 else 0)
  {
    CountSnoc(table, x, (r: Reservation) => r.status == "pending");
    CountSnoc(table, x, (r: Reservation) => r.status == "confirmed");
    CountSnoc(table, x, (r: Reservation) => r.status == "cancelled");
  }

  // ---------------------------------------------------------- admin_entities_api

  datatype IndividualRow = IndividualRow(id: int, fullName: string, email: string, phone: string, organization: string)
  datatype OrganizationRow = OrganizationRow(id: int, organizationName: string, contactPerson: string, email: string, phone: string)
  datatype Entities = Entities(individuals: seq<IndividualRow>, organizations: seq<OrganizationRow>)

  const EntityLimit: nat := 10

  /** `admin_entities_api`: the first ten rows of each table, in table order. */
  function EntitiesListing(individuals: seq<IndividualRow>, organizations: seq<OrganizationRow>): (r: Entities)
    ensures |r.individuals| <= EntityLimit && |r.organizations| <= EntityLimit
    ensures r.individuals <= individuals && r.organizations <= organizations
    ensures |individuals| <= EntityLimit ==> r.individuals == individuals
    ensures |organizations| <= EntityLimit ==> r.organizations == organizations
    ensures |r.individuals| == Min(EntityLimit, |individuals|)
    ensures |r.organizations| == Min(EntityLimit, |organizations|)
  {
    Entities(Take(individuals, EntityLimit), Take(organizations, EntityLimit))
  }

  // ------------------------------------------------------------------- the gate

  datatype Gated<T> = Redirected | Served(payload: T)

  /** The `login_required` + `user_passes_test(is_admin)` pair on the read-only
      endpoints: an anonymous user is sent to the login page, a signed-in user who is
      not staff fails the test, and only an admin sees the payload. */
  function AdminOnly<T>(user: User, payload: T): (r: Gated<T>)
    ensures !user.isAuthenticated ==> r == Redirected
    ensures r.Served? <==> IsAdmin(user)
    ensures r.Served? ==> r.payload == payload
  {
    if !user.isAuthenticated then Redirected
    else if !user.isStaff then Redirected
    else Served(payload)
  }

  /** `admin_stats_api` behind its decorators. */
  function StatsEndpoint(user: User, eventClasses: seq<EventClass>, table: seq<Reservation>,
                         venues: seq<Venue>, suites: nat, contracts: nat, individuals: nat,
                         organizations: nat, weekAgo: int): (r: Gated<Stats>)
    ensures r.Served? <==> IsAdmin(user)
    ensures r.Served? ==> r.payload.reservationsTotal == |table|
  {
    AdminOnly(user, AdminStats(eventClasses, table, venues, suites, contracts, individuals, organizations, weekAgo))
  }

  /** `admin_reservations_api` behind its decorators. */
  function ReservationsEndpoint(user: User, table: seq<Reservation>): (r: Gated<seq<ReservationRow>>)
    ensures r.Served? <==> IsAdmin(user)
    ensures r.Served? ==> |r.payload| == Min(ListingLimit, |table|)
  {
    AdminOnly(user, ReservationsListing(table))
  }

  /** `admin_entities_api` behind its decorators. */
  function EntitiesEndpoint(user: User, individuals: seq<IndividualRow>,
                            organizations: seq<OrganizationRow>): (r: Gated<Entities>)
    ensures r.Served? <==> IsAdmin(user)
    ensures r.Served? ==> r.payload.individuals <= individuals && r.payload.organizations <= organizations
  {
    AdminOnly(user, EntitiesListing(individuals, organizations))
  }

  /** A user who is not an admin can neither change the reservations table nor read
      any of the dashboard's data. */
  lemma NonAdminChangesNothing(table: seq<Reservation>, isPost: bool, user: User, body: Option<StatusRequest>)
    requires !IsAdmin(user)
    ensures UpdateReservationStatus(table, isPost, user, body).table == table
    ensures UpdateReservationStatus(table, isPost, user, body).reply in {MethodNotAllowed, LoginRedirect}
  {
  }

  lemma NonAdminReadsNothing(user: User, eventClasses: seq<EventClass>, table: seq<Reservation>,
                             venues: seq<Venue>, suites: nat, contracts: nat,
                             individuals: seq<IndividualRow>, organizations: seq<OrganizationRow>,
                             weekAgo: int)
    requires !IsAdmin(user)
    ensures StatsEndpoint(user, eventClasses, table, venues, suites, contracts,
                          |individuals|, |organizations|, weekAgo) == Redirected
    ensures ReservationsEndpoint(user, table) == Redirected
    ensures EntitiesEndpoint(user, individuals, organizations) == Redirected
  {
  }

  /** An admin is served every dashboard payload, each exactly as its handler computes it. */
  lemma AdminReadsEverything(user: User, eventClasses: seq<EventClass>, table: seq<Reservation>,
                             venues: seq<Venue>, suites: nat, contracts: nat,
                             individuals: seq<IndividualRow>, organizations: seq<OrganizationRow>,
                             weekAgo: int)
    requires IsAdmin(user)
    ensures StatsEndpoint(user, eventClasses, table, venues, suites, contracts,
                          |individuals|, |organizations|, weekAgo)
         == Served(AdminStats(eventClasses, table, venues, suites, contracts,
                              |individuals|, |organizations|, weekAgo))
    ensures ReservationsEndpoint(user, table) == Served(ReservationsListing(table))
    ensures EntitiesEndpoint(user, individuals, organizations) == Served(EntitiesListing(individuals, organizations))
  {
  }
}

=== FILE: chat.dfy ===
/** The chat endpoints: request validation, the session message log, the prompt sent
    to the completion service and the history lookup. The completion service is an
    oracle: its answer is a parameter of the handler. */
module Chat {
  import opened Wrappers
  import opened Seqs
  import opened Text

  type UserId = int
  type SessionId = string

  datatype Role = UserRole | AssistantRole | SystemRole

  datatype Message = Message(role: Role, content: string)

  /** A chat session: the user it was created for and its messages in creation order. */
  datatype Session = Session(owner: Option<UserId>, messages: seq<Message>)

  type Store = map<SessionId, Session>

  const SystemPrompt: string :=
    "You are a helpful assistant for The CIED (Center for Innovation and Economic Development). "
    + "You can help with questions about events, venue bookings, and general inquiries."
  const NotConfiguredReply: string := "Sorry, the chat service is not configured. Please contact an administrator."
  const ServiceErrorReply: string := "Sorry, I'm having trouble connecting to the chat service. Please try again later."
  const NetworkErrorReply: string := "Sorry, there was a network error. Please try again later."
  const UnexpectedErrorReply: string := "Sorry, something went wrong. Please try again later."

  /** How many of the latest messages go into the prompt. */
  const HistoryWindow: nat := 10

  // ------------------------------------------------------------ call_openai_api

  /** The prompt: the fixed system message, then the latest messages oldest first. */
  function BuildPrompt(history: seq<Message>): (p: seq<Message>)
    ensures |p| == 1 + Min(HistoryWindow, |history|) && |p| <= 1 + HistoryWindow
    ensures p[0] == Message(SystemRole, SystemPrompt)
    ensures forall i :: 1 <= i < |p| ==> p[i] == history[|history| - (|p| - 1) + (i - 1)]
  {
    var recent := if |history| <= HistoryWindow then history else history[|history| - HistoryWindow..];
    [Message(SystemRole, SystemPrompt)] + recent
  }

  /** The prompt ends with the newest message of the history. */
  lemma PromptEndsWithLatest(history: seq<Message>)
    requires |history| > 0
    ensures BuildPrompt(history)[|BuildPrompt(history)| - 1] == history[|history| - 1]
  {
  }

  /** What the completion service does with a request: answer with a text (the
      200 case), answer with another status, fail on the network, or fail otherwise. */
  datatype CompletionOutcome =
    | Completed(content: string)
    | ServiceError(statusCode: int)
    | NetworkError
    | UnexpectedError

  /** The request sent, if any, and the reply text. */
  datatype Completion = Completion(request: Option<seq<Message>>, reply: string)

  /** An API key setting is usable when it is present and non-empty. */
  predicate Configured(apiKey: Option<string>) {
    apiKey.Some? && apiKey.value != ""
  }

  /** `call_openai_api`: no request without a key; every failure becomes a canned reply;
      a completed answer is stripped. */
  function CallCompletion(history: seq<Message>, apiKey: Option<string>, outcome: CompletionOutcome): (c: Completion)
    ensures !Configured(apiKey) ==> c == Completion(None, NotConfiguredReply)
    ensures Configured(apiKey) ==> c.request == Some(BuildPrompt(history))
    ensures Configured(apiKey) && outcome.Completed? ==> c.reply == Strip(outcome.content)
    ensures Configured(apiKey) && outcome.ServiceError? ==> c.reply == ServiceErrorReply
    ensures Configured(apiKey) && outcome.NetworkError? ==> c.reply == NetworkErrorReply
    ensures Configured(apiKey) && outcome.UnexpectedError? ==> c.reply == UnexpectedErrorReply
    ensures c.reply == "" <==> Configured(apiKey) && outcome.Completed? && IsBlank(outcome.content)
  {
    if !Configured(apiKey) then Completion(None, NotConfiguredReply)
    else
      var reply := match outcome
        case Completed(content) => (StripEmptyIffBlank(content); Strip(content))
        case ServiceError(_) => ServiceErrorReply
        case NetworkError => NetworkErrorReply
        case UnexpectedError => UnexpectedErrorReply;
      Completion(Some(BuildPrompt(history)), reply)
  }

  // ------------------------------------------------------------------- chat_api

  /** The `message` key of the body: absent, a JSON string, or any other JSON value
      (null, a number, a list...), which has no `strip` and raises. */
  datatype MessageField = NoMessage | MessageText(text: string) | NotAString

  /** The `session_id` key of the body: absent, a JSON string, or null. */
  datatype SessionField = NoSessionId | SessionIdText(id: SessionId) | NullSessionId

  datatype ChatRequest = ChatRequest(message: MessageField, sessionId: SessionField)

  /** The request body: bytes that do not decode as text (`json.loads` raises a
      `UnicodeDecodeError`, which is not a `JSONDecodeError`), text that `json.loads`
      rejects, JSON that is not an object (no `get`), or an object. */
  datatype ChatBody = NotText | NotJson | NotAnObject | JsonObject(request: ChatRequest)

  datatype ChatReply =
    | MethodNotAllowed                            // `require_POST`
    | InvalidJson                                 // "Invalid JSON"
    | MessageRequired                             // "Message is required"
    | ServerError                                 // any other exception, reported with its text
    | NoAiResponse                                // "Failed to get response from AI"
    | Replied(response: string, sessionId: SessionId)

  function HttpStatus(reply: ChatReply): int {
    match reply
    case MethodNotAllowed => 405
    case InvalidJson => 400
    case MessageRequired => 400
    case ServerError => 500
    case NoAiResponse => 500
    case Replied(_, _) => 200
  }

  datatype ChatStep = ChatStep(reply: ChatReply, store: Store, request: Option<seq<Message>>)

  /** The message text before stripping: `data.get('message', '')`; None when it is
      not a string. */
  function RawMessage(req: ChatRequest): Option<string> {
    match req.message
    case NoMessage => Some("")
    case MessageText(t) => Some(t)
    case NotAString => None
  }

  /** The session a request addresses: the one it names, or the fresh identifier; None
      for a null identifier, which no session can have. */
  function SessionFor(req: ChatRequest, freshId: SessionId): Option<SessionId> {
    match req.sessionId
    case NoSessionId => Some(freshId)
    case SessionIdText(id) => Some(id)
    case NullSessionId => None
  }

  /** A request the handler carries through to the completion service: its message is
      a string with some non-whitespace character and it names no null session. */
  predicate Proceeds(req: ChatRequest) {
    RawMessage(req).Some? && !IsBlank(RawMessage(req).value) && !req.sessionId.NullSessionId?
  }

  /** Only the addressed session changed. */
  ghost predicate OthersUnchanged(before: Store, after: Store, sid: SessionId) {
    sid in after
    && forall k :: k != sid ==> (k in after <==> k in before) && (k in before ==> after[k] == before[k])
  }

  /** `chat_api`. `freshId` is the identifier generated when the body names none,
      `user` the authenticated user if any, `apiKey` the configured key and `outcome`
      what the completion service would do. A body that is not text, JSON that is not
      an object, a message that is not a string, and a null session identifier all
      raise inside the handler and end in its generic 500. */
  function ChatApi(store: Store, isPost: bool, body: ChatBody, freshId: SessionId,
                   user: Option<UserId>, apiKey: Option<string>, outcome: CompletionOutcome): (r: ChatStep)
    ensures r.reply in {MethodNotAllowed, InvalidJson, MessageRequired, ServerError} ==>
      r.store == store && r.request.None?
    ensures r.reply == MethodNotAllowed <==> !isPost
    ensures r.reply == InvalidJson <==> isPost && body.NotJson?
    ensures r.reply == MessageRequired <==>
      isPost && body.JsonObject? && RawMessage(body.request).Some? && IsBlank(RawMessage(body.request).value)
    ensures r.reply == ServerError <==>
      isPost && (body.NotText? || body.NotAnObject?
                 || (body.JsonObject? && (RawMessage(body.request).None?
                     || (!IsBlank(RawMessage(body.request).value) && body.request.sessionId.NullSessionId?))))
    ensures r.reply.Replied? || r.reply == NoAiResponse <==> isPost && body.JsonObject? && Proceeds(body.request)
    ensures isPost && body.JsonObject? && Proceeds(body.request) ==>
      var sid := SessionFor(body.request, freshId).value;
      var before := if sid in store then store[sid].messages else [];
      var sent := Message(UserRole, Strip(RawMessage(body.request).value));
      var c := CallCompletion(before + [sent], apiKey, outcome);
      && OthersUnchanged(store, r.store, sid)
      && r.request == c.request
      && (r.reply.Replied? <==> c.reply != "")
      && (r.reply.Replied? ==>
            r.reply == Replied(c.reply, sid)
            && r.store[sid].messages == before + [sent, Message(AssistantRole, c.reply)])
      && (r.reply == NoAiResponse ==> r.store[sid].messages == before + [sent])
      && (r.request.Some? ==> |r.request.value| > 1 && r.request.value[|r.request.value| - 1] == sent)
      && r.store[sid].owner == (if sid in store then store[sid].owner else user)
  {
    if !isPost then ChatStep(MethodNotAllowed, store, None)
    else if body.NotJson? then ChatStep(InvalidJson, store, None)
    else if body.NotText? || body.NotAnObject? then ChatStep(ServerError, store, None)
    else
      var req := body.request;
      match RawMessage(req)
      case None => ChatStep(ServerError, store, None)
      case Some(raw) =>
        var message := Strip(raw);
        StripEmptyIffBlank(raw);
        if message == "" then ChatStep(MessageRequired, store, None)
        else
          match SessionFor(req, freshId)
          case None => ChatStep(ServerError, store, None)
          case Some(sid) =>
            var session := if sid in store then store[sid] else Session(user, []);
            var history := session.messages + [Message(UserRole, message)];
            var c := CallCompletion(history, apiKey, outcome);
            if c.reply != "" then
              ChatStep(Replied(c.reply, sid),
                       store[sid := session.(messages := history + [Message(AssistantRole, c.reply)])],
                       c.request)
            else
              ChatStep(NoAiResponse, store[sid := session.(messages := history)], c.request)
  }

  /** Without an API key every message that gets through is answered with the fixed
      "not configured" reply and nothing is sent out. */
  lemma UnconfiguredAlwaysAnswers(store: Store, req: ChatRequest, freshId: SessionId,
                                  user: Option<UserId>, apiKey: Option<string>, outcome: CompletionOutcome)
    requires !Configured(apiKey) && Proceeds(req)
    ensures var r := ChatApi(store, true, JsonObject(req), freshId, user, apiKey, outcome);
      r.reply == Replied(NotConfiguredReply, SessionFor(req, freshId).value) && r.request.None?
  {
  }

  /** The handler answers 500 "Failed to get response from AI" exactly when the
      service completed with an all-whitespace answer: every failure of the service
      comes back as a canned, non-empty apology that is shown to the user. */
  lemma OnlyBlankAnswerFails(store: Store, req: ChatRequest, freshId: SessionId,
                             user: Option<UserId>, apiKey: Option<string>, outcome: CompletionOutcome)
    requires Proceeds(req)
    ensures ChatApi(store, true, JsonObject(req), freshId, user, apiKey, outcome).reply == NoAiResponse
        <==> Configured(apiKey) && outcome.Completed? && IsBlank(outcome.content)
  {
  }

  /** A completed answer is shown stripped: it neither starts nor ends with whitespace. */
  lemma ReplyIsStripped(store: Store, req: ChatRequest, freshId: SessionId,
                        user: Option<UserId>, apiKey: Option<string>, content: string)
    requires Proceeds(req) && Configured(apiKey) && !IsBlank(content)
    ensures var r := ChatApi(store, true, JsonObject(req), freshId, user, apiKey, Completed(content));
      r.reply.Replied? && |r.reply.response| > 0
      && !IsWhitespace(r.reply.response[0]) && !IsWhitespace(r.reply.response[|r.reply.response| - 1])
  {
    StripEmptyIffBlank(content);
    StripTrimsEnds(content);
    var r := ChatApi(store, true, JsonObject(req), freshId, user, apiKey, Completed(content));
    var sid := SessionFor(req, freshId).value;
    var before := if sid in store then store[sid].messages else [];
    var sent := Message(UserRole, Strip(RawMessage(req).value));
    assert CallCompletion(before + [sent], apiKey, Completed(content)).reply == Strip(content);
    assert r.reply.response == Strip(content);
  }

  // ----------------------------------------------------------- get_chat_history

  datatype HistoryReply =
    | SessionIdRequired                                          // 400
    | History(sessionId: Option<SessionId>, messages: seq<Message>)

  function HistoryStatus(reply: HistoryReply): int {
    match reply
    case SessionIdRequired => 400
    case History(_, _) => 200
  }

  /** `get_chat_history`: an unknown session reads as an empty history without an id. */
  function GetChatHistory(store: Store, sessionId: Option<SessionId>): (r: HistoryReply)
    ensures r == SessionIdRequired <==> sessionId.None? || sessionId == Some("")
    ensures r.History? && sessionId.value !in store ==> r == History(None, [])
    ensures r.History? && sessionId.value in store ==> r == History(sessionId, store[sessionId.value].messages)
  {
    match sessionId
    case None => SessionIdRequired
    case Some(sid) =>
      if sid == "" then SessionIdRequired
      else if sid in store then History(Some(sid), store[sid].messages)
      else History(None, [])
  }

  /** After a reply the session's history ends with the exchange just made. */
  lemma HistoryShowsExchange(store: Store, req: ChatRequest, freshId: SessionId, user: Option<UserId>,
                             apiKey: Option<string>, outcome: CompletionOutcome)
    requires ChatApi(store, true, JsonObject(req), freshId, user, apiKey, outcome).reply.Replied?
    requires SessionFor(req, freshId) != Some("")
    ensures var r := ChatApi(store, true, JsonObject(req), freshId, user, apiKey, outcome);
      var h := GetChatHistory(r.store, SessionFor(req, freshId));
      h.History? && |h.messages| >= 2
      && h.messages[|h.messages| - 2] == Message(UserRole, Strip(RawMessage(req).value))
      && h.messages[|h.messages| - 1] == Message(AssistantRole, r.reply.response)
  {
  }
}

=== FILE: drag_drop_upload.dfy ===
/** The admin image-upload widget's accept/reject decision: the MIME-type whitelist,
    the size bound, the order of the two checks, and the error element the widget
    keeps next to its drop zone. */
module DragDropUpload {
  import opened Wrappers
  import opened Text

  /** The parts of a browser `File` the widget reads; `size` is in bytes. */
  datatype File = File(name: string, mimeType: string, size: int)

  const ValidTypes: seq<string> := ["image/jpeg", "image/jpg", "image/png", "image/gif", "image/webp"]

  /** 10 MiB: a file of exactly this size is still accepted. */
  const MaxFileSize: int := 10 * 1024 * 1024

  const InvalidTypeMessage: string := "Please select a valid image file (JPG, PNG, GIF, WebP)"
  const TooLargeMessage: string := "File size must be less than 10MB"

  /** `isValidImageFile`: the lower-cased type is on the whitelist. */
  predicate IsValidImageFile(f: File) {
    Lower(f.mimeType) in ValidTypes
  }

  /** Types that differ only in letter case are judged alike. */
  lemma ValidityIgnoresCase(f: File, g: File)
    requires Lower(f.mimeType) == Lower(g.mimeType)
    ensures IsValidImageFile(f) == IsValidImageFile(g)
  {
  }

  lemma UpperCaseTypeAccepted(name: string, size: int)
    ensures IsValidImageFile(File(name, "IMAGE/PNG", size))
  {
    assert Lower("IMAGE/PNG") == "image/png";
  }

  lemma OtherImageTypesRejected(name: string, size: int)
    ensures !IsValidImageFile(File(name, "image/svg+xml", size))
    ensures !IsValidImageFile(File(name, "image/bmp", size))
  {
    assert |Lower("image/svg+xml")| == 13;
    assert Lower("image/bmp")[6] == 'b';
  }

  datatype Verdict = InvalidType | TooLarge | Accepted

  /** The two checks of `handleFileSelect`, type first. */
  function Check(f: File): (v: Verdict)
    ensures v == Accepted <==> IsValidImageFile(f) && f.size <= MaxFileSize
    ensures v == InvalidType <==> !IsValidImageFile(f)
    ensures v == TooLarge <==> IsValidImageFile(f) && f.size > MaxFileSize
  {
    if !IsValidImageFile(f) then InvalidType
    else if f.size > MaxFileSize then TooLarge
    else Accepted
  }

  /** The widget's visible state: the texts of the error elements beside the drop zone,
      in document order, and the file it holds. */
  datatype Zone = Zone(errors: seq<string>, hasFile: bool, selected: Option<File>)

  /** The widget shows at most one error at a time. */
  predicate AtMostOneError(z: Zone) {
    |z.errors| <= 1
  }

  /** `clearError`: removes the first error element `querySelector` finds, if there is
      one; the others stay, in order. */
  function ClearError(errors: seq<string>): (r: seq<string>)
    ensures |errors| > 0 ==> errors == [errors[0]] + r
    ensures |r| == if |errors| == 0 then 0 else |errors| - 1
    ensures |errors| <= 1 ==> r == []
  {
    if |errors| > 0 then errors[1..] else errors
  }

  /** `showError`: clears first, then appends the new error. */
  function ShowError(z: Zone, message: string): (r: Zone)
    ensures AtMostOneError(z) ==> r.errors == [message]
    ensures |r.errors| == if |z.errors| == 0 then 1 else |z.errors|
    ensures r.errors[|r.errors| - 1] == message
    ensures r.hasFile == z.hasFile && r.selected == z.selected
  {
    z.(errors := ClearError(z.errors) + [message])
  }

  /** The state an accepted file leaves: the error cleared and the file held. */
  function Accept(z: Zone, f: File): Zone {
    Zone(ClearError(z.errors), true, Some(f))
  }

  /** `handleFileSelect` without re-entering itself: nothing for no file, one error for
      a rejected file, the file taken and the error cleared otherwise. */
  function HandleFileSelect(z: Zone, file: Option<File>): (r: Zone)
    ensures file.None? ==> r == z
    ensures file.Some? && Check(file.value) == InvalidType ==> r == ShowError(z, InvalidTypeMessage)
    ensures file.Some? && Check(file.value) == TooLarge ==> r == ShowError(z, TooLargeMessage)
    ensures file.Some? && Check(file.value) == Accepted ==>
      r.hasFile && r.selected == file && r.errors == ClearError(z.errors)
      && (AtMostOneError(z) ==> r.errors == [])
    ensures AtMostOneError(z) ==> AtMostOneError(r)
  {
    match file
    case None => z
    case Some(f) =>
      match Check(f)
      case InvalidType => ShowError(z, InvalidTypeMessage)
      case TooLarge => ShowError(z, TooLargeMessage)
      case Accepted => Accept(z, f)
  }

  /** The drop handler: the first dropped file goes through the same checks. */
  function HandleDrop(z: Zone, files: seq<File>): (r: Zone)
    ensures |files| == 0 ==> r == z
    ensures |files| > 0 && !IsValidImageFile(files[0]) ==> r == ShowError(z, InvalidTypeMessage)
    ensures |files| > 0 && IsValidImageFile(files[0]) ==> r == HandleFileSelect(z, Some(files[0]))
  {
    if |files| > 0 then
      var f := files[0];
      if IsValidImageFile(f) then HandleFileSelect(z, Some(f)) else ShowError(z, InvalidTypeMessage)
    else z
  }

  /** The drop handler's own type check is redundant: dropping files is selecting the
      first of them, and dropping none does nothing. */
  lemma DropIsSelectFirst(z: Zone, files: seq<File>)
    ensures |files| == 0 ==> HandleDrop(z, files) == z
    ensures |files| > 0 ==> HandleDrop(z, files) == HandleFileSelect(z, Some(files[0]))
  {
  }

  /** Starting from a widget with at most one error, any sequence of drops keeps it so. */
  lemma {:induction false} DropsKeepOneError(z: Zone, drops: seq<seq<File>>)
    requires AtMostOneError(z)
    ensures AtMostOneError(ApplyDrops(z, drops))
    decreases |drops|
  {
    if |drops| > 0 {
      DropIsSelectFirst(z, drops[0]);
      DropsKeepOneError(HandleDrop(z, drops[0]), drops[1..]);
    }
  }

  function ApplyDrops(z: Zone, drops: seq<seq<File>>): Zone
    decreases |drops|
  {
    if |drops| == 0 then z else ApplyDrops(HandleDrop(z, drops[0]), drops[1..])
  }

  // -------------------------------------------------------- as written in the source

  /** What an as-written call to `handleFileSelect` leaves: the widget, how many image
      previews (`FileReader` reads) it started, and whether a stack overflow was thrown
      and reported on the way. */
  datatype AsWritten = AsWritten(zone: Zone, previewsStarted: nat, overflowReported: bool)

  /** `handleFileSelect` as written: after taking an accepted file it dispatches a
      `change` event on the file input, whose listener calls `handleFileSelect` again
      with the same file. `depth` is how many further nested calls the engine allows.
      The call one level too deep throws a `RangeError`; the event dispatch that invoked
      that listener reports the exception instead of rethrowing it, so every enclosing
      call then returns normally. */
  function HandleFileSelectAsWritten(z: Zone, file: Option<File>, depth: nat): AsWritten
    decreases depth
  {
    match file
    case None => AsWritten(z, 0, false)
    case Some(f) =>
      match Check(f)
      case InvalidType => AsWritten(ShowError(z, InvalidTypeMessage), 0, false)
      case TooLarge => AsWritten(ShowError(z, TooLargeMessage), 0, false)
      case Accepted =>
        if depth == 0 then AsWritten(z, 0, true)
        else
          var inner := HandleFileSelectAsWritten(Accept(z, f), file, depth - 1);
          AsWritten(inner.zone, inner.previewsStarted + 1, inner.overflowReported)
  }

  /** Accepting a file twice leaves what accepting it once left. */
  lemma AcceptTwice(z: Zone, f: File)
    requires AtMostOneError(z)
    ensures Accept(Accept(z, f), f) == Accept(z, f)
  {
  }

  /** However deep the stack, selecting an acceptable file as written ends in a
      reported stack overflow and starts one preview per nesting level, although the
      widget itself ends as the corrected handler leaves it. */
  lemma {:induction false} AcceptedFileOverflows(z: Zone, f: File, depth: nat)
    requires Check(f) == Accepted && AtMostOneError(z) && depth > 0
    ensures HandleFileSelectAsWritten(z, Some(f), depth)
         == AsWritten(HandleFileSelect(z, Some(f)), depth, true)
    decreases depth
  {
    if depth > 1 {
      AcceptedFileOverflows(Accept(z, f), f, depth - 1);
      AcceptTwice(z, f);
    }
  }

  /** On every other path the code as written agrees with the corrected handler and
      starts no preview. */
  lemma AsWrittenAgreesWhenNotAccepted(z: Zone, file: Option<File>, depth: nat)
    requires file.None? || Check(file.value) != Accepted
    ensures HandleFileSelectAsWritten(z, file, depth) == AsWritten(HandleFileSelect(z, file), 0, false)
  {
  }
}

=== FILE: event_models.dfy ===
/** The `Event` and `EventRegistration` models: the eligibility predicates and the
    one-registration-per-pair constraint. Times are integers; `now` is a parameter. */
module EventModels {
  import opened Wrappers
  import opened Seqs

  type EventId = int
  type UserId = int
  type Time = int

  /** The fields of an event the views read. `maxParticipants` is a nullable
      non-negative column: None means "unlimited". */
  datatype Event = Event(
    id: EventId,
    title: string,
    description: string,
    date: Time,
    location: string,
    maxParticipants: Option<nat>,
    registrationDeadline: Option<Time>,
    isActive: bool)

  datatype Registration = Registration(event: EventId, user: UserId, notes: string)

  /** `is_upcoming`: the event lies strictly in the future. */
  predicate IsUpcoming(e: Event, now: Time) {
    e.date > now
  }

  /** `can_register`: an inactive event, or one whose deadline has passed, refuses
      registrations; otherwise registration stays open while the event is upcoming. */
  function CanRegister(e: Event, now: Time): (r: bool)
    ensures !e.isActive ==> !r
    ensures e.registrationDeadline.Some? && e.registrationDeadline.value < now ==> !r
    ensures r <==> e.isActive && IsUpcoming(e, now)
                   && (e.registrationDeadline.None? || now <= e.registrationDeadline.value)
  {
    if !e.isActive then false
    else if e.registrationDeadline.Some? && e.registrationDeadline.value < now then false
    else IsUpcoming(e, now)
  }

  /** A deadline equal to the current time still admits registrations. */
  lemma DeadlineIsInclusive(e: Event, now: Time)
    requires e.isActive && e.date > now && e.registrationDeadline == Some(now)
    ensures CanRegister(e, now)
  {
  }

  /** The `unique_together` constraint on (event, user). */
  ghost predicate Unique(regs: seq<Registration>) {
    forall i, j :: 0 <= i < j < |regs| ==>
      (regs[i].event, regs[i].user) != (regs[j].event, regs[j].user)
  }

  predicate IsFor(r: Registration, event: EventId, user: UserId) {
    r.event == event && r.user == user
  }

  /** `EventRegistration.objects.filter(event=..., user=...).exists()`. */
  predicate IsRegistered(regs: seq<Registration>, event: EventId, user: UserId) {
    exists r :: r in regs && IsFor(r, event, user)
  }

  /** `event.registrations.count()`. */
  function RegistrationCount(regs: seq<Registration>, event: EventId): nat {
    Count(regs, (r: Registration) => r.event == event)
  }

  /** Under the uniqueness constraint a (event, user) pair matches at most one row. */
  lemma {:induction false} UniqueMatchesAtMostOne(regs: seq<Registration>, event: EventId, user: UserId)
    requires Unique(regs)
    ensures Count(regs, (r: Registration) => IsFor(r, event, user)) <= 1
  {
    var p := (r: Registration) => IsFor(r, event, user);
    if |regs| > 0 {
      assert Unique(regs[1..]);
      UniqueMatchesAtMostOne(regs[1..], event, user);
      if p(regs[0]) {
        assert forall k :: 0 <= k < |regs[1..]| ==> !p(regs[1..][k]) by {
          forall k | 0 <= k < |regs[1..]|
            ensures !p(regs[1..][k])
          {
            assert regs[1..][k] == regs[k + 1];
          }
        }
        FilterNone(regs[1..], p);
      }
    }
  }
}

=== FILE: event_views.dfy ===
/** The event views: the public listing, the detail page's derived counts, and the
    guarded register/unregister transitions over the registration table. The
    registration table is a value; each transition returns the table it leaves behind. */
module EventViews {
  import opened Wrappers
  import opened Seqs
  import opened Text
  import opened EventModels

  // ---------------------------------------------------------------- event_list

  /** The base query of `event_list`: active events dated now or later. An event dated
      exactly `now` is listed although `IsUpcoming` is false for it. */
  predicate Listed(e: Event, now: Time) {
    e.isActive && e.date >= now
  }

  /** `icontains` on title, description or location, with both sides lower-cased. */
  predicate MatchesSearch(e: Event, query: string) {
    var q := Lower(query);
    Contains(Lower(e.title), q) || Contains(Lower(e.description), q) || Contains(Lower(e.location), q)
  }

  /** What the listing shows: listed events, narrowed by the search when one is given. */
  predicate Shown(e: Event, now: Time, search: string) {
    Listed(e, now) && (search == "" || MatchesSearch(e, search))
  }

  function EventDate(e: Event): int { e.date }

  /** `event_list`: the listed events ordered by date, narrowed by the search. */
  function EventList(events: seq<Event>, now: Time, search: string): (r: seq<Event>)
    ensures SortedBy(r, EventDate)
    ensures forall i :: 0 <= i < |r| ==> Shown(r[i], now, search)
  {
    var listed := Filter(events, (e: Event) => Listed(e, now));
    var upcoming := SortBy(listed, EventDate);
    assert forall i :: 0 <= i < |upcoming| ==> Listed(upcoming[i], now) by {
      forall i | 0 <= i < |upcoming|
        ensures Listed(upcoming[i], now)
      {
        assert upcoming[i] in multiset(listed);
        FilterMember(events, (e: Event) => Listed(e, now), upcoming[i]);
      }
    }
    if search != "" then
      var found := Filter(upcoming, (e: Event) => MatchesSearch(e, search));
      FilterSorted(upcoming, EventDate, (e: Event) => MatchesSearch(e, search));
      assert forall i :: 0 <= i < |found| ==> Shown(found[i], now, search) by {
        forall i | 0 <= i < |found|
          ensures Shown(found[i], now, search)
        {
          FilterMember(upcoming, (e: Event) => MatchesSearch(e, search), found[i]);
        }
      }
      found
    else upcoming
  }

  /** The listing holds every shown event of the table exactly as often as the table
      does, and nothing else. */
  lemma EventListIsPermutation(events: seq<Event>, now: Time, search: string)
    ensures multiset(EventList(events, now, search)) == multiset(Filter(events, (e: Event) => Shown(e, now, search)))
  {
    var listed := Filter(events, (e: Event) => Listed(e, now));
    var upcoming := SortBy(listed, EventDate);
    var r := EventList(events, now, search);
    var expected := Filter(events, (e: Event) => Shown(e, now, search));
    forall x
      ensures multiset(r)[x] == multiset(expected)[x]
    {
      FilterMultiplicity(events, (e: Event) => Listed(e, now), x);
      FilterMultiplicity(events, (e: Event) => Shown(e, now, search), x);
      if search != "" {
        FilterMultiplicity(upcoming, (e: Event) => MatchesSearch(e, search), x);
      }
    }
  }

  /** An event at the very moment `now` is listed but cannot be registered for. */
  lemma ListedNowButClosed(e: Event, now: Time)
    requires e.isActive && e.date == now
    ensures Listed(e, now) && !CanRegister(e, now)
  {
  }

  // -------------------------------------------------------------- event_detail

  /** The capacity a `max_participants` value imposes: None and 0 are both falsy and
      therefore both mean "unlimited". */
  function Capacity(maxParticipants: Option<nat>): (r: Option<nat>)
    ensures r.Some? ==> r.value > 0 && r == maxParticipants
    ensures r.None? <==> maxParticipants.None? || maxParticipants == Some(0)
  {
    if maxParticipants.Some? && maxParticipants.value != 0 then maxParticipants else None
  }

  /** `spots_remaining`: places left under the capacity, which may be negative when the
      table already holds more registrations than the capacity. */
  function SpotsRemaining(maxParticipants: Option<nat>, count: nat): (r: Option<int>)
    ensures r.Some? <==> Capacity(maxParticipants).Some?
    ensures r.Some? ==> r.value + count == maxParticipants.value
  {
    match Capacity(maxParticipants)
    case Some(cap) => Some(cap - count)
    case None => None
  }

  datatype Detail = Detail(
    event: Event,
    userRegistered: bool,
    registrationCount: nat,
    spotsRemaining: Option<int>)

  /** The events table keyed by primary key: each event is stored under its own id. */
  ghost predicate KeyedById(events: map<EventId, Event>) {
    forall id :: id in events ==> events[id].id == id
  }

  /** `event_detail`; None is the 404 of `get_object_or_404`. `viewer` is None for an
      anonymous visitor, who is never reported as registered. */
  function EventDetail(events: map<EventId, Event>, regs: seq<Registration>, eventId: EventId,
                       viewer: Option<UserId>): (r: Option<Detail>)
    ensures r.None? <==> eventId !in events
    ensures r.Some? ==> r.value.event == events[eventId]
    ensures r.Some? && KeyedById(events) ==> r.value.event.id == eventId
    ensures r.Some? ==> (r.value.userRegistered <==> viewer.Some? && IsRegistered(regs, eventId, viewer.value))
    ensures r.Some? ==> r.value.registrationCount == |Filter(regs, (x: Registration) => x.event == eventId)|
    ensures r.Some? ==> (r.value.spotsRemaining.Some? <==> Capacity(events[eventId].maxParticipants).Some?)
    ensures r.Some? && r.value.spotsRemaining.Some? && Capacity(events[eventId].maxParticipants).Some? ==>
      r.value.spotsRemaining.value == Capacity(events[eventId].maxParticipants).value - r.value.registrationCount
  {
    if eventId !in events then None
    else
      var e := events[eventId];
      var registered := viewer.Some? && IsRegistered(regs, eventId, viewer.value);
      var count := RegistrationCount(regs, eventId);
      Some(Detail(e, registered, count, SpotsRemaining(e.maxParticipants, count)))
  }

  // -------------------------------------------------------- register_for_event

  /** The capacity guard of `register_for_event`. */
  predicate IsFull(e: Event, count: nat) {
    Capacity(e.maxParticipants).Some? && count >= Capacity(e.maxParticipants).value
  }

  /** The detail page and the register view agree: an event is full exactly when the
      page shows a capacity with no spot left. */
  lemma FullIffNoSpotsLeft(e: Event, count: nat)
    ensures IsFull(e, count) <==>
      SpotsRemaining(e.maxParticipants, count).Some? && SpotsRemaining(e.maxParticipants, count).value <= 0
  {
  }

  /** How the register and unregister views end: each outcome is one branch of the
      source, named after the message it flashes. */
  datatype Outcome =
    | LoginRequired          // `login_required` redirect for an anonymous user
    | EventNotFound          // `get_object_or_404`
    | NotAvailable           // "Registration for this event is not available."
    | AlreadyRegistered      // "You are already registered for this event."
    | EventFull              // "This event is full."
    | ShowForm               // a GET that passed every guard renders the form
    | Registered             // "Successfully registered for ...!"
    | NotRegistered          // "You are not registered for this event."
    | MultipleRegistrations  // `get` finds several rows; the exception escapes as a 500
    | Unregistered           // "Successfully unregistered from ..."

  /** The response each outcome produces: the refusals and successes redirect to the
      detail page with a flash message, a GET past the guards renders the form, and the
      escaping `MultipleObjectsReturned` becomes a server error. */
  function HttpStatus(o: Outcome): int {
    match o
    case LoginRequired => 302
    case EventNotFound => 404
    case NotAvailable => 302
    case AlreadyRegistered => 302
    case EventFull => 302
    case ShowForm => 200
    case Registered => 302
    case NotRegistered => 302
    case MultipleRegistrations => 500
    case Unregistered => 302
  }

  /** The outcome of a view and the registration table it leaves behind. */
  datatype Step = Step(outcome: Outcome, regs: seq<Registration>)

  /** All guards of `register_for_event` pass, in the order they are checked. */
  predicate Eligible(events: map<EventId, Event>, regs: seq<Registration>, eventId: EventId,
                     user: UserId, now: Time) {
    && eventId in events
    && CanRegister(events[eventId], now)
    && !IsRegistered(regs, eventId, user)
    && !IsFull(events[eventId], RegistrationCount(regs, eventId))
  }

  /** `register_for_event`: the guards run in order (login, lookup, eligibility,
      duplicate, capacity, method) and only a POST past all of them writes. */
  function RegisterForEvent(events: map<EventId, Event>, regs: seq<Registration>, eventId: EventId,
                            user: Option<UserId>, now: Time, isPost: bool, notes: string): (r: Step)
    ensures r.outcome == Registered <==> user.Some? && Eligible(events, regs, eventId, user.value, now) && isPost
    ensures r.outcome == Registered ==> r.regs == regs + [Registration(eventId, user.value, notes)]
    ensures r.outcome != Registered ==> r.regs == regs
    ensures r.outcome == LoginRequired <==> user.None?
    ensures r.outcome == EventNotFound <==> user.Some? && eventId !in events
    ensures r.outcome == NotAvailable <==> user.Some? && eventId in events && !CanRegister(events[eventId], now)
    ensures r.outcome == AlreadyRegistered <==>
      user.Some? && eventId in events && CanRegister(events[eventId], now) && IsRegistered(regs, eventId, user.value)
    ensures r.outcome == EventFull <==>
      user.Some? && eventId in events && CanRegister(events[eventId], now) && !IsRegistered(regs, eventId, user.value)
      && IsFull(events[eventId], RegistrationCount(regs, eventId))
    ensures r.outcome == ShowForm <==> user.Some? && Eligible(events, regs, eventId, user.value, now) && !isPost
  {
    if user.None? then Step(LoginRequired, regs)
    else if eventId !in events then Step(EventNotFound, regs)
    else
      var e := events[eventId];
      var u := user.value;
      if !CanRegister(e, now) then Step(NotAvailable, regs)
      else if IsRegistered(regs, eventId, u) then Step(AlreadyRegistered, regs)
      else if Capacity(e.maxParticipants).Some? && RegistrationCount(regs, eventId) >= Capacity(e.maxParticipants).value then
        Step(EventFull, regs)
      else if isPost then Step(Registered, regs + [Registration(eventId, u, notes)])
      else Step(ShowForm, regs)
  }

  /** Registering keeps the one-registration-per-pair constraint. */
  lemma RegisterPreservesUnique(events: map<EventId, Event>, regs: seq<Registration>, eventId: EventId,
                                user: Option<UserId>, now: Time, isPost: bool, notes: string)
    requires Unique(regs)
    ensures Unique(RegisterForEvent(events, regs, eventId, user, now, isPost, notes).regs)
  {
    var r := RegisterForEvent(events, regs, eventId, user, now, isPost, notes);
    if r.outcome == Registered {
      var n := Registration(eventId, user.value, notes);
      forall i | 0 <= i < |regs|
        ensures (regs[i].event, regs[i].user) != (n.event, n.user)
      {
        assert regs[i] in regs;
      }
    }
  }

  /** A successful registration raises its event's count by one and no other event's. */
  lemma {:induction false} RegisterCounts(events: map<EventId, Event>, regs: seq<Registration>, eventId: EventId,
                                          user: Option<UserId>, now: Time, isPost: bool, notes: string, other: EventId)
    requires RegisterForEvent(events, regs, eventId, user, now, isPost, notes).outcome == Registered
    ensures RegistrationCount(RegisterForEvent(events, regs, eventId, user, now, isPost, notes).regs, other)
         == RegistrationCount(regs, other) + (if other == eventId then 1 else 0)
  {
    var n := Registration(eventId, user.value, notes);
    var p := (x: Registration) => x.event == other;
    FilterAppend(regs, [n], p);
    assert Filter([n], p) == (if other == eventId then [n] else []) by {
      assert [n][1..] == [];
    }
  }

  /** Run one at a time, a registration that passes the capacity guard leaves the
      event within its capacity. */
  lemma RegisterKeepsCapacity(events: map<EventId, Event>, regs: seq<Registration>, eventId: EventId,
                              user: Option<UserId>, now: Time, isPost: bool, notes: string)
    requires RegisterForEvent(events, regs, eventId, user, now, isPost, notes).outcome == Registered
    requires Capacity(events[eventId].maxParticipants).Some?
    ensures RegistrationCount(RegisterForEvent(events, regs, eventId, user, now, isPost, notes).regs, eventId)
         <= events[eventId].maxParticipants.value
  {
    RegisterCounts(events, regs, eventId, user, now, isPost, notes, eventId);
  }

  /** Registering twice in a row: the second attempt is refused as a duplicate. */
  lemma SecondRegistrationRefused(events: map<EventId, Event>, regs: seq<Registration>, eventId: EventId,
                                  user: Option<UserId>, now: Time, notes: string, notes2: string, isPost2: bool)
    requires RegisterForEvent(events, regs, eventId, user, now, true, notes).outcome == Registered
    ensures RegisterForEvent(events, RegisterForEvent(events, regs, eventId, user, now, true, notes).regs,
                             eventId, user, now, isPost2, notes2).outcome == AlreadyRegistered
  {
    var regs' := RegisterForEvent(events, regs, eventId, user, now, true, notes).regs;
    assert regs'[|regs|] in regs';
  }

  // ----------------------------------------------------- unregister_from_event

  /** `unregister_from_event`: deletes the one row for (event, user). The lookup raises
      `MultipleObjectsReturned` when several rows match, which the view does not catch. */
  function UnregisterFromEvent(events: map<EventId, Event>, regs: seq<Registration>, eventId: EventId,
                               user: Option<UserId>): (r: Step)
    ensures r.outcome == LoginRequired <==> user.None?
    ensures r.outcome == EventNotFound <==> user.Some? && eventId !in events
    ensures r.outcome == NotRegistered <==> user.Some? && eventId in events && !IsRegistered(regs, eventId, user.value)
    ensures r.outcome == MultipleRegistrations <==>
      user.Some? && eventId in events && Count(regs, (x: Registration) => IsFor(x, eventId, user.value)) > 1
    ensures r.outcome == Unregistered <==>
      user.Some? && eventId in events && Count(regs, (x: Registration) => IsFor(x, eventId, user.value)) == 1
    ensures r.outcome != Unregistered ==> r.regs == regs
    ensures r.outcome == Unregistered ==>
      exists k :: 0 <= k < |regs| && IsFor(regs[k], eventId, user.value) && r.regs == regs[..k] + regs[k + 1..]
    ensures r.outcome == Unregistered ==> !IsRegistered(r.regs, eventId, user.value)
  {
    if user.None? then Step(LoginRequired, regs)
    else if eventId !in events then Step(EventNotFound, regs)
    else
      var u := user.value;
      var p := (x: Registration) => IsFor(x, eventId, u);
      var q := (x: Registration) => !IsFor(x, eventId, u);
      var matching := Count(regs, p);
      if matching == 0 then
        assert !IsRegistered(regs, eventId, u);
        Step(NotRegistered, regs)
      else if matching > 1 then
        assert IsRegistered(regs, eventId, u) by {
          assert Filter(regs, p)[0] in regs;
        }
        Step(MultipleRegistrations, regs)
      else
        var rest := Filter(regs, q);
        FilterOutSingle(regs, p, q);
        assert IsRegistered(regs, eventId, u) by {
          assert Filter(regs, p)[0] in regs;
        }
        assert !IsRegistered(rest, eventId, u) by {
          forall x | x in rest
            ensures !IsFor(x, eventId, u)
          {
            FilterMember(regs, q, x);
          }
        }
        Step(Unregistered, rest)
  }

  /** With the uniqueness constraint in force, unregistering never meets duplicate rows. */
  lemma UnregisterNeverSeesDuplicates(events: map<EventId, Event>, regs: seq<Registration>, eventId: EventId,
                                      user: Option<UserId>)
    requires Unique(regs)
    ensures UnregisterFromEvent(events, regs, eventId, user).outcome != MultipleRegistrations
  {
    if user.Some? {
      UniqueMatchesAtMostOne(regs, eventId, user.value);
    }
  }

  /** Unregistering keeps the one-registration-per-pair constraint. */
  lemma UnregisterPreservesUnique(events: map<EventId, Event>, regs: seq<Registration>, eventId: EventId,
                                  user: Option<UserId>)
    requires Unique(regs)
    ensures Unique(UnregisterFromEvent(events, regs, eventId, user).regs)
  {
    var r := UnregisterFromEvent(events, regs, eventId, user);
    if r.outcome == Unregistered {
      FilterKeepsUnique(regs, (x: Registration) => !IsFor(x, eventId, user.value));
    }
  }

  /** A registration whose pair appears nowhere in a unique table may be put in front. */
  lemma UniqueCons(x: Registration, regs: seq<Registration>)
    requires Unique(regs)
    requires forall i :: 0 <= i < |regs| ==> (x.event, x.user) != (regs[i].event, regs[i].user)
    ensures Unique([x] + regs)
  {
  }

  /** Dropping rows keeps the table unique. */
  lemma {:induction false} FilterKeepsUnique(regs: seq<Registration>, p: Registration -> bool)
    requires Unique(regs)
    ensures Unique(Filter(regs, p))
  {
    if |regs| > 0 {
      var tail := regs[1..];
      assert Unique(tail);
      FilterKeepsUnique(tail, p);
      var rest := Filter(tail, p);
      forall i | 0 <= i < |rest|
        ensures (regs[0].event, regs[0].user) != (rest[i].event, rest[i].user)
      {
        assert rest[i] in tail;
        var k :| 0 <= k < |tail| && tail[k] == rest[i];
        assert regs[k + 1] == rest[i];
      }
      if p(regs[0]) {
        UniqueCons(regs[0], rest);
      }
    }
  }

  /** Appending the one registration for a pair that had none: the pair now matches
      exactly one row, and filtering it out gives back the original table. */
  lemma {:induction false} AppendFreshPair(regs: seq<Registration>, n: Registration, eventId: EventId, u: UserId)
    requires !IsRegistered(regs, eventId, u) && IsFor(n, eventId, u)
    ensures Count(regs + [n], (x: Registration) => IsFor(x, eventId, u)) == 1
    ensures Filter(regs + [n], (x: Registration) => !IsFor(x, eventId, u)) == regs
  {
    var p := (x: Registration) => IsFor(x, eventId, u);
    var q := (x: Registration) => !IsFor(x, eventId, u);
    forall i | 0 <= i < |regs|
      ensures !p(regs[i]) && q(regs[i])
    {
      assert regs[i] in regs;
    }
    FilterAppend(regs, [n], p);
    FilterNone(regs, p);
    assert Filter([n], p) == [n] by { assert [n][1..] == []; }
    FilterAppend(regs, [n], q);
    FilterAll(regs, q);
    assert Filter([n], q) == [] by { assert [n][1..] == []; }
  }

  /** Unregistering right after a successful registration restores the table exactly. */
  lemma RegisterThenUnregister(events: map<EventId, Event>, regs: seq<Registration>, eventId: EventId,
                               user: Option<UserId>, now: Time, notes: string)
    requires RegisterForEvent(events, regs, eventId, user, now, true, notes).outcome == Registered
    ensures UnregisterFromEvent(events, RegisterForEvent(events, regs, eventId, user, now, true, notes).regs,
                                eventId, user)
         == Step(Unregistered, regs)
  {
    var u := user.value;
    var n := Registration(eventId, u, notes);
    AppendFreshPair(regs, n, eventId, u);
  }
}

=== FILE: seqs.dfy ===
/** Order-preserving selection, counting, truncation and sorting over sequences:
    the query-set operations (`filter`, `count`, `[:n]`, `order_by`) the views rely on. */
module Seqs {

  function Min(a: int, b: int): int {
    if a <= b then a else b
  }

  /** The elements of `s` that satisfy `p`, in their original order. */
  function Filter<T>(s: seq<T>, p: T -> bool): (r: seq<T>)
    ensures |r| <= |s|
    ensures forall i :: 0 <= i < |r| ==> r[i] in s && p(r[i])
    ensures forall i :: 0 <= i < |s| && p(s[i]) ==> s[i] in r
    ensures multiset(r) <= multiset(s)
  {
    if |s| == 0 then []
    else
      assert s == [s[0]] + s[1..];
      if p(s[0]) then [s[0]] + Filter(s[1..], p)
      else Filter(s[1..], p)
  }

  /** Whatever survives a filter passes it and came from the input. */
  lemma FilterMember<T>(s: seq<T>, p: T -> bool, x: T)
    requires x in Filter(s, p)
    ensures x in s && p(x)
  {
    var r := Filter(s, p);
    var i :| 0 <= i < |r| && r[i] == x;
  }

  /** Filtering distributes over concatenation. */
  lemma {:induction false} FilterAppend<T>(a: seq<T>, b: seq<T>, p: T -> bool)
    ensures Filter(a + b, p) == Filter(a, p) + Filter(b, p)
  {
    if |a| == 0 {
      assert a + b == b;
    } else {
      assert (a + b)[1..] == a[1..] + b;
      FilterAppend(a[1..], b, p);
    }
  }

  /** A filter that every element passes changes nothing. */
  lemma {:induction false} FilterAll<T>(s: seq<T>, p: T -> bool)
    requires forall i :: 0 <= i < |s| ==> p(s[i])
    ensures Filter(s, p) == s
  {
    if |s| > 0 {
      FilterAll(s[1..], p);
    }
  }

  /** A filter that no element passes leaves nothing. */
  lemma FilterNone<T>(s: seq<T>, p: T -> bool)
    requires forall i :: 0 <= i < |s| ==> !p(s[i])
    ensures Filter(s, p) == []
  {
  }

  /** How often `x` survives a filter: as often as it occurs in `s` when it passes, never otherwise. */
  lemma {:induction false} FilterMultiplicity<T>(s: seq<T>, p: T -> bool, x: T)
    ensures multiset(Filter(s, p))[x] == if p(x) then multiset(s)[x] else 0
  {
    if |s| > 0 {
      assert s == [s[0]] + s[1..];
      FilterMultiplicity(s[1..], p, x);
    }
  }

  /** Sequences that agree on which positions pass a filter keep equally many elements. */
  lemma {:induction false} FilterSameCount<T>(a: seq<T>, b: seq<T>, p: T -> bool)
    requires |a| == |b|
    requires forall i :: 0 <= i < |a| ==> p(a[i]) == p(b[i])
    ensures |Filter(a, p)| == |Filter(b, p)|
  {
    if |a| > 0 {
      FilterSameCount(a[1..], b[1..], p);
    }
  }

  /** When exactly one element passes `p`, the complementary filter `q` removes just that
      element and keeps the others in order. */
  lemma {:induction false} FilterOutSingle<T>(s: seq<T>, p: T -> bool, q: T -> bool)
    requires forall i :: 0 <= i < |s| ==> q(s[i]) == !p(s[i])
    requires |Filter(s, p)| == 1
    ensures exists k :: 0 <= k < |s| && p(s[k]) && Filter(s, q) == s[..k] + s[k + 1..]
  {
    if |s| == 0 {
      assert false;
    }
    if p(s[0]) {
      FilterOutFirst(s, p, q);
      assert p(s[0]) && Filter(s, q) == s[..0] + s[0 + 1..];
    } else {
      var tail := s[1..];
      assert Filter(s, p) == Filter(tail, p);
      assert Filter(s, q) == [s[0]] + Filter(tail, q);
      FilterOutSingle(tail, p, q);
      var k :| 0 <= k < |tail| && p(tail[k]) && Filter(tail, q) == tail[..k] + tail[k + 1..];
      SpliceAfterHead(s, k);
      assert p(s[k + 1]) && Filter(s, q) == s[..k + 1] + s[k + 1 + 1..];
    }
  }

  /** The one element passing `p` is the head: the complementary filter keeps the tail. */
  lemma FilterOutFirst<T>(s: seq<T>, p: T -> bool, q: T -> bool)
    requires forall i :: 0 <= i < |s| ==> q(s[i]) == !p(s[i])
    requires |s| > 0 && p(s[0]) && |Filter(s, p)| == 1
    ensures Filter(s, q) == s[1..]
  {
    var tail := s[1..];
    assert Filter(s, p) == [s[0]] + Filter(tail, p);
    forall i | 0 <= i < |tail|
      ensures q(tail[i])
    {
      assert tail[i] == s[i + 1];
    }
    FilterAll(tail, q);
  }

  lemma SpliceAfterHead<T>(s: seq<T>, k: nat)
    requires k + 1 < |s|
    ensures [s[0]] + (s[1..][..k] + s[1..][k + 1..]) == s[..k + 1] + s[k + 2..]
  {
    assert s[..k + 1] == [s[0]] + s[1..][..k];
  }

  /** The number of elements of `s` that satisfy `p`: SQL `count()` over a filter. */
  function Count<T>(s: seq<T>, p: T -> bool): (n: nat)
    ensures n <= |s|
  {
    |Filter(s, p)|
  }

  /** The positions of `s` whose element satisfies `p`. */
  ghost function Positions<T>(s: seq<T>, p: T -> bool): set<int> {
    set i | 0 <= i < |s| && p(s[i])
  }

  /** The count is the number of positions whose element satisfies `p`. */
  lemma {:induction false} CountByIndices<T>(s: seq<T>, p: T -> bool)
    ensures Count(s, p) == |Positions(s, p)|
    decreases |s|
  {
    if |s| > 0 {
      var init := s[..|s| - 1];
      CountByIndices(init, p);
      CountSnoc(init, s[|s| - 1], p);
      IndicesSnoc(init, s[|s| - 1], p);
      assert init + [s[|s| - 1]] == s;
    }
  }

  lemma CountSnoc<T>(s: seq<T>, x: T, p: T -> bool)
    ensures Count(s + [x], p) == Count(s, p) + if p(x) then 1 else 0
  {
    FilterAppend(s, [x], p);
    assert [x][1..] == [];
  }

  lemma IndicesSnoc<T>(s: seq<T>, x: T, p: T -> bool)
    ensures |Positions(s + [x], p)| == |Positions(s, p)| + if p(x) then 1 else 0
  {
    var t := s + [x];
    var before := Positions(s, p);
    var after := Positions(t, p);
    if p(x) {
      assert after == before + {|s|};
    } else {
      assert after == before;
    }
  }

  /** The first `n` elements of `s`, or all of them when there are fewer: Python `s[:n]`. */
  function Take<T>(s: seq<T>, n: nat): (r: seq<T>)
    ensures |r| == Min(n, |s|)
    ensures r <= s
  {
    if |s| <= n then s else s[..n]
  }

  ghost predicate SortedBy<T>(s: seq<T>, key: T -> int) {
    forall i, j :: 0 <= i < j < |s| ==> key(s[i]) <= key(s[j])
  }

  /** Prepending an element no larger than any other keeps a sequence sorted. */
  lemma SortedCons<T>(x: T, s: seq<T>, key: T -> int)
    requires SortedBy(s, key)
    requires forall i :: 0 <= i < |s| ==> key(x) <= key(s[i])
    ensures SortedBy([x] + s, key)
  {
  }

  /** A selection from a sorted sequence is still sorted. */
  lemma {:induction false} FilterSorted<T>(s: seq<T>, key: T -> int, p: T -> bool)
    requires SortedBy(s, key)
    ensures SortedBy(Filter(s, p), key)
  {
    if |s| > 0 {
      var tail := s[1..];
      assert SortedBy(tail, key);
      FilterSorted(tail, key, p);
      var rest := Filter(tail, p);
      forall i | 0 <= i < |rest|
        ensures key(s[0]) <= key(rest[i])
      {
        assert rest[i] in tail;
        var k :| 0 <= k < |tail| && tail[k] == rest[i];
        assert s[k + 1] == rest[i];
      }
      if p(s[0]) {
        SortedCons(s[0], rest, key);
      }
    }
  }

  /** Inserts `x` into the sorted `s` in front of the first element whose key is at
      least as large. */
  function Insert<T>(x: T, s: seq<T>, key: T -> int): (r: seq<T>)
    requires SortedBy(s, key)
    ensures SortedBy(r, key)
    ensures multiset(r) == multiset(s) + multiset{x}
  {
    if |s| == 0 then [x]
    else if key(x) <= key(s[0]) then [x] + s
    else
      var rest := Insert(x, s[1..], key);
      assert s == [s[0]] + s[1..];
      assert forall i :: 0 <= i < |rest| ==> key(s[0]) <= key(rest[i]) by {
        forall i | 0 <= i < |rest|
          ensures key(s[0]) <= key(rest[i])
        {
          assert rest[i] in multiset(rest);
          if rest[i] != x {
            assert rest[i] in multiset(s[1..]);
          }
        }
      }
      [s[0]] + rest
  }

  /** An insertion sort by ascending `key`: `order_by`. The order among equal keys is
      not specified, as in SQL. */
  function SortBy<T>(s: seq<T>, key: T -> int): (r: seq<T>)
    ensures SortedBy(r, key)
    ensures multiset(r) == multiset(s)
  {
    if |s| == 0 then []
    else
      assert s == [s[0]] + s[1..];
      Insert(s[0], SortBy(s[1..], key), key)
  }
}

=== FILE: subdomain_routing.dfy ===
/** `SubdomainRoutingMiddleware`: requests for an admin host that are not already
    under the dashboard's URL prefix are redirected to the dashboard. */
module SubdomainRouting {
  import opened Text

  const AdminHostMarker: string := "admin."
  const DashboardPrefix: string := "/admin_dashboard/"

  datatype Decision = Redirect(location: string) | PassThrough

  /** The host test as written: a prefix test or a substring test. */
  predicate IsAdminHost(host: string) {
    AdminHostMarker <= host || Contains(host, AdminHostMarker)
  }

  /** The prefix disjunct adds nothing: an admin host is one that contains "admin."
      anywhere, as in "superadmin.example.com". */
  lemma AdminHostIsSubstringTest(host: string)
    ensures IsAdminHost(host) <==> Occurs(AdminHostMarker, host)
  {
    ContainsIffOccurs(host, AdminHostMarker);
    if AdminHostMarker <= host {
      PrefixIsContained(AdminHostMarker, host);
    }
  }

  /** `__call__`: the redirect decision for a (host, path) pair. */
  function Route(host: string, path: string): (d: Decision)
    ensures d.Redirect? ==> d.location == DashboardPrefix
    ensures d.Redirect? <==> Occurs(AdminHostMarker, host) && !(DashboardPrefix <= path)
  {
    AdminHostIsSubstringTest(host);
    if IsAdminHost(host) && !(DashboardPrefix <= path) then Redirect(DashboardPrefix) else PassThrough
  }

  /** Following the redirect on the same host is never redirected again. */
  lemma RedirectIsFinal(host: string, path: string)
    requires Route(host, path).Redirect?
    ensures Route(host, Route(host, path).location) == PassThrough
  {
  }

  /** A host that does not contain "admin." is never redirected. */
  lemma OtherHostsPassThrough(host: string, path: string)
    requires !Occurs(AdminHostMarker, host)
    ensures Route(host, path) == PassThrough
  {
  }

  lemma SuperadminHostIsAdmin()
    ensures Route("superadmin.example.com", "/") == Redirect(DashboardPrefix)
  {
    assert "superadmin.example.com"[5..11] == AdminHostMarker;
    assert OccursAt(AdminHostMarker, "superadmin.example.com", 5);
  }

  /** The prefix without its trailing slash is not under the dashboard. */
  lemma BareDashboardPathRedirected(host: string)
    requires Occurs(AdminHostMarker, host)
    ensures Route(host, "/admin_dashboard") == Redirect(DashboardPrefix)
  {
    assert !(DashboardPrefix <= "/admin_dashboard");
  }
}

=== FILE: suite_contracts.dfy ===
/** The validation rules of a suite contract (`SuiteContracts.clean`) and the
    entity it binds (`SuiteContracts.get_entity`). Dates are day numbers. */
module SuiteContracts {
  import opened Wrappers

  type IndividualId = nat
  type OrganizationId = nat
  type Date = int

  /** The fields `clean` reads. Both foreign keys and both dates are nullable in the
      form being validated; an object that is present is truthy. */
  datatype Contract = Contract(
    individual: Option<IndividualId>,
    organization: Option<OrganizationId>,
    begin: Option<Date>,
    end: Option<Date>,
    onGoing: bool)

  /** The entity a contract is bound to. */
  datatype Entity = Individual(individualId: IndividualId) | Organization(organizationId: OrganizationId)

  /** The four `ValidationError`s `clean` raises, in the order it checks for them. */
  datatype ContractError = NoEntity | BothEntities | MissingEnd | EndNotAfterBegin

  datatype Validation = Valid | Invalid(error: ContractError)

  /** Exactly one of the two entity references is set. */
  predicate ExactlyOneEntity(c: Contract) {
    c.individual.Some? != c.organization.Some?
  }

  /** An end date is present unless the contract is ongoing. */
  predicate HasRequiredEnd(c: Contract) {
    c.onGoing || c.end.Some?
  }

  /** When both dates are present the end comes strictly after the begin;
      this holds whether or not the contract is ongoing. */
  predicate DatesOrdered(c: Contract) {
    c.end.Some? && c.begin.Some? ==> c.begin.value < c.end.value
  }

  /** The contract invariant the admin form enforces on save. */
  predicate WellFormed(c: Contract) {
    ExactlyOneEntity(c) && HasRequiredEnd(c) && DatesOrdered(c)
  }

  /** `clean`: the first rule broken, in source order, decides the error. */
  function Clean(c: Contract): (r: Validation)
    ensures r == Valid <==> WellFormed(c)
    ensures r == Invalid(NoEntity) <==> c.individual.None? && c.organization.None?
    ensures r == Invalid(BothEntities) <==> c.individual.Some? && c.organization.Some?
    ensures r == Invalid(MissingEnd) <==> ExactlyOneEntity(c) && !HasRequiredEnd(c)
    ensures r == Invalid(EndNotAfterBegin) <==>
      ExactlyOneEntity(c) && HasRequiredEnd(c) && !DatesOrdered(c)
  {
    if c.individual.None? && c.organization.None? then Invalid(NoEntity)
    else if c.individual.Some? && c.organization.Some? then Invalid(BothEntities)
    else if !c.onGoing && c.end.None? then Invalid(MissingEnd)
    else if c.end.Some? && c.begin.Some? && c.end.value <= c.begin.value then Invalid(EndNotAfterBegin)
    else Valid
  }

  /** `get_entity`: the individual when set, else the organization when set, else nothing. */
  function GetEntity(c: Contract): (r: Option<Entity>)
    ensures r.None? <==> c.individual.None? && c.organization.None?
    ensures c.individual.Some? ==> r == Some(Individual(c.individual.value))
    ensures c.individual.None? && c.organization.Some? ==> r == Some(Organization(c.organization.value))
  {
    match c.individual
    case Some(i) => Some(Individual(i))
    case None =>
      match c.organization
      case Some(o) => Some(Organization(o))
      case None => None
  }

  /** After a successful `clean` the contract is bound to exactly one entity:
      `get_entity` names it and the other reference is empty. */
  lemma CleanContractHasOneEntity(c: Contract)
    requires Clean(c) == Valid
    ensures GetEntity(c).Some?
    ensures GetEntity(c).value.Individual? ==> c.organization.None?
    ensures GetEntity(c).value.Organization? ==> c.individual.None?
  {
  }

  /** An end date on or before the begin date is refused even on an ongoing contract. */
  lemma OngoingStillChecksDates(c: Contract)
    requires ExactlyOneEntity(c) && c.onGoing
    requires c.begin.Some? && c.end.Some? && c.end.value <= c.begin.value
    ensures Clean(c) == Invalid(EndNotAfterBegin)
  {
  }

  /** An end date on the begin date itself is refused. */
  lemma SameDayContractRejected(i: IndividualId, d: Date, onGoing: bool)
    ensures Clean(Contract(Some(i), None, Some(d), Some(d), onGoing)) == Invalid(EndNotAfterBegin)
  {
  }
}

=== FILE: text.dfy ===
/** String operations the handlers use: prefix and substring tests, ASCII lower-casing
    and whitespace stripping. */
module Text {

  /** `sub` occurs in `s` starting at offset `i`. */
  ghost predicate OccursAt(sub: string, s: string, i: int) {
    0 <= i && i + |sub| <= |s| && s[i..i + |sub|] == sub
  }

  /** `sub` occurs somewhere in `s`: Python's `sub in s`, JavaScript's `includes`. */
  ghost predicate Occurs(sub: string, s: string) {
    exists i :: OccursAt(sub, s, i)
  }

  /** Substring search, scanning `s` from the left. */
  function Contains(s: string, sub: string): bool {
    if sub <= s then true
    else if |s| == 0 then false
    else Contains(s[1..], sub)
  }

  /** The scan finds `sub` exactly when it occurs somewhere in `s`. */
  lemma {:induction false} ContainsIffOccurs(s: string, sub: string)
    ensures Contains(s, sub) <==> Occurs(sub, s)
  {
    if sub <= s {
      assert OccursAt(sub, s, 0);
    } else if |s| == 0 {
      assert |sub| > 0;
    } else {
      ContainsIffOccurs(s[1..], sub);
      assert !OccursAt(sub, s, 0);
      forall i | OccursAt(sub, s[1..], i)
        ensures OccursAt(sub, s, i + 1)
      {
        assert s[1..][i..i + |sub|] == s[i + 1..i + 1 + |sub|];
      }
      forall i | OccursAt(sub, s, i) && i > 0
        ensures OccursAt(sub, s[1..], i - 1)
      {
        assert s[1..][i - 1..i - 1 + |sub|] == s[i..i + |sub|];
      }
    }
  }

  /** Every string contains its own prefixes. */
  lemma PrefixIsContained(p: string, s: string)
    requires p <= s
    ensures Contains(s, p)
  {
  }

  /** ASCII upper-case letters map to lower case; every other character is unchanged. */
  function LowerChar(c: char): char {
    if 'A' <= c <= 'Z' then (c as int + 32) as char else c
  }

  function Lower(s: string): (r: string)
    ensures |r| == |s|
    ensures forall i :: 0 <= i < |s| ==> r[i] == LowerChar(s[i])
  {
    seq(|s|, i requires 0 <= i < |s| => LowerChar(s[i]))
  }

  /** The characters Python's `str.isspace` accepts. */
  predicate IsWhitespace(c: char) {
    c == ' ' || '\t' <= c <= '\r' || '\U{1c}' <= c <= '\U{1f}'
    || c == '\U{85}' || c == '\U{a0}' || c == '\U{1680}'
    || '\U{2000}' <= c <= '\U{200a}' || c == '\U{2028}' || c == '\U{2029}'
    || c == '\U{202f}' || c == '\U{205f}' || c == '\U{3000}'
  }

  predicate IsBlank(s: string) {
    forall i :: 0 <= i < |s| ==> IsWhitespace(s[i])
  }

  /** The first index at or after `i` that does not hold whitespace, or `|s|`. */
  function SkipBlank(s: string, i: nat): (n: nat)
    requires i <= |s|
    ensures i <= n <= |s|
    ensures forall k :: i <= k < n ==> IsWhitespace(s[k])
    ensures n < |s| ==> !IsWhitespace(s[n])
    decreases |s| - i
  {
    if i < |s| && IsWhitespace(s[i]) then SkipBlank(s, i + 1) else i
  }

  /** The least index `m` in `lo..j` such that `s[m..j]` is all whitespace. */
  function SkipBlankBack(s: string, lo: nat, j: nat): (m: nat)
    requires lo <= j <= |s|
    ensures lo <= m <= j
    ensures forall k :: m <= k < j ==> IsWhitespace(s[k])
    ensures m > lo ==> !IsWhitespace(s[m - 1])
  {
    if j > lo && IsWhitespace(s[j - 1]) then SkipBlankBack(s, lo, j - 1) else j
  }

  /** `s[a..b]` is what remains of `s` once whitespace is cut off both ends. */
  ghost predicate StrippedSlice(s: string, a: int, b: int) {
    && 0 <= a <= b <= |s|
    && (forall k :: 0 <= k < a ==> IsWhitespace(s[k]))
    && (forall k :: b <= k < |s| ==> IsWhitespace(s[k]))
    && (a < b ==> !IsWhitespace(s[a]) && !IsWhitespace(s[b - 1]))
  }

  /** Python's `str.strip()`. */
  function Strip(s: string): (r: string)
    ensures exists a, b :: StrippedSlice(s, a, b) && r == s[a..b]
  {
    var a := SkipBlank(s, 0);
    var b := SkipBlankBack(s, a, |s|);
    assert StrippedSlice(s, a, b);
    s[a..b]
  }

  /** What stripping leaves neither starts nor ends with whitespace. */
  lemma StripTrimsEnds(s: string)
    ensures |Strip(s)| > 0 ==> !IsWhitespace(Strip(s)[0]) && !IsWhitespace(Strip(s)[|Strip(s)| - 1])
  {
    var a := SkipBlank(s, 0);
    var b := SkipBlankBack(s, a, |s|);
    assert StrippedSlice(s, a, b);
    assert Strip(s) == s[a..b];
  }

  /** Stripping leaves nothing exactly when the string is all whitespace. */
  lemma StripEmptyIffBlank(s: string)
    ensures Strip(s) == [] <==> IsBlank(s)
  {
    var a := SkipBlank(s, 0);
    var b := SkipBlankBack(s, a, |s|);
    assert Strip(s) == s[a..b];
    if !IsBlank(s) {
      var k :| 0 <= k < |s| && !IsWhitespace(s[k]);
      assert a <= k < b;
    }
  }
}

=== FILE: wrappers.dfy ===
/** Optional values: Python's `None`, a nullable column, an absent JSON key. */
module Wrappers {

  datatype Option<+T> = None | Some(value: T)
}
